=== FILE: README.md ===
# CashCluster in Dafny

CashCluster is a collection app for coins, banknotes and user-defined
categories ("Stamps", say). This project models its logic as pure functions
over immutable records. The app keeps that logic inside its SwiftUI views.
The model covers:

- the custom-category schema: the fixed fields "Name" and "Year of
  foundation", the user's extra fields, and tab identity by category id;
- the "New item" sheet: the form state, which custom field gets which input,
  the required-name check, and the record written on save;
- the item detail sheet's edit mode, which overwrites the record;
- the filter engine: the match predicate over `FilterParameters`, the facet
  lists (sorted distinct values per field), and the check-box selection
  state;
- the root step machine (splash, permission, onboarding, main), the integer
  channels of `Color(hex:)`, and the four-page onboarding pager.

Modules:

| file | module | what it holds |
|---|---|---|
| base.dfy | `Base` | `Option`, `Result`, `Int32`, order-preserving `Select` and `Subsequence` |
| text.dfy | `Text` | whitespace trimming, ASCII lower-casing, `contains`, string order, decimal rendering and `Int32(String)` parsing |
| records.dfy | `Records` | `ItemCategory`, `CustomCategory`, `Item`, the abstract JSON codec, `zip` into a dictionary |
| add_item.dfy | `AddItem` | the "New item" sheet |
| filter.dfy | `Filter` | the filter predicate, the filtered list, the selection state |
| facets.dfy | `Facets` | the category list and the per-field value lists |
| cluster.dfy | `Cluster` | tabs, the collection grid's filter, the "New Category" sheet, edit mode |
| app.dfy | `App` | the step machine and the hex colour channels |
| onboarding.dfy | `Onboarding` | the onboarding pager |
| scenarios.dfy | `Scenarios` | end-to-end walks composed from the modules above |

The JSON encoding of a `[String: String]` field map is a pair of functions,
`FieldCodec(encode, decode)`, passed as a parameter. Decoding can fail. Two
properties of the JSON coder are assumptions, together called the codec
assumptions:

- `RoundTrips(codec)`: whatever encodes decodes back to the same map.
- `EncodesAll(codec)`: encoding never fails. `JSONEncoder` cannot fail on a
  `[String: String]` and its output is valid UTF-8, so the `try?` and
  `String(data:encoding:)` of ClusterView.swift:470-476 and
  AddItemSheetView.swift:224-228 never yield nil for such a map.

Lemmas that rely on them take them as preconditions; neither is proved.

Three behaviours of the code shape the model:

- **The filter is lenient.** A field constraint rejects an item only when
  the item *has* a value for the field and that value is not allowed
  (FilterView.swift:38-45, ClusterView.swift:50-59). A missing country, an
  unset year (0), a collection that does not decode, or a map without the
  key all pass. `Filter.LenientNotStrict` exhibits such an item.
- **FilterView and the collection grid read an empty category set
  differently.** On the filter screen an empty `selectedCategories` imposes
  no restriction (FilterView.swift:35). In the grid, with filter parameters
  present, the category must be a member, so an empty set shows nothing
  (ClusterView.swift:48). Both are modelled. In the app the grid is only
  ever built without filter parameters (MainTabView.swift:18 calls
  `ClusterContentView()`, and `filterParams` defaults to nil at
  ClusterView.swift:23), so the grid's filter branch and
  `Cluster.TabFilterAgreesWithFilterScreen` describe code that users never
  reach; what they see is the per-tab listing of
  `Cluster.TabListsItsCategory`.
- **A "Year of foundation" field is never typed into.** A custom field
  whose lower-cased title contains "year" but not "name" is shown as the
  year picker (AddItemSheetView.swift:132-151). The picker writes only
  `selectedYear`. The field's entry in the stored map therefore stays "",
  and the picked year is stored only in `year`. `Scenarios.StampSaved`
  shows what is stored.

## Model

| member | source | states |
|---|---|---|
| Text.BlankIffAllWhitespace | AddItemSheetView.swift:170 | a string is blank after trimming `.whitespaces` exactly when every character is a whitespace character |
| Text.ContainsIffOffset | AddItemSheetView.swift:122 | `contains` holds exactly when the substring starts at some offset |
| Text.LessTotal | FilterView.swift:201 | the string order used for sorting facet values is total on distinct strings |
| Text.LessTransitive | FilterView.swift:201 | the string order is transitive |
| Text.DecimalRoundTrip | ClusterView.swift:636 | parsing an `Int32` back from its decimal rendering (`String(item.year)` then `Int32(editedYear)`) gives the same number |
| Text.DecimalZero | FilterView.swift:199 | the decimal rendering is "0" exactly for 0, so filtering out "0" drops exactly the unset years |
| Text.ParseInt32 | ClusterView.swift:636 | `Int32(editedYear)` succeeds only on a non-empty text of decimal digits with at most one leading sign; a negative result needs a leading "-"; a text starting with anything but a digit or a sign fails; a digit string, bare or after "+", parses exactly when its value is at most 2^31-1, and after "-" exactly when it is at most 2^31, to the value with the sign applied (leading zeros allowed) |
| Text.SignedParses | ClusterView.swift:636 | `Int32("+7")` is 7 and `Int32("-05")` is -5 |
| Records.RawValueInjective | AddItemSheetView.swift:5-8 | distinct built-in categories have distinct raw values |
| Records.OtherNeverVisible | AddItemSheetView.swift:10-12 | `Other` is never offered; the offered categories are distinct |
| Records.DecodeCustomFields | ClusterView.swift:461-468 | a missing or undecodable collection reads as the empty map; otherwise the decoded map |
| Records.EncodeCustomFields | ClusterView.swift:470-476 | an encoding failure yields ""; otherwise the encoded text |
| Records.EncodeThenDecode | ClusterView.swift:461-476 | under the round-trip assumption, decoding what was encoded gives the map back |
| Records.ZipMap | AddItemSheetView.swift:223 | pairs keys with values by position, stopping at the shorter list; requires the paired keys to be distinct, which the source traps on otherwise |
| AddItem.NewBuiltinDraft | AddItemSheetView.swift:22-36 | a built-in sheet starts with empty texts, no year and no custom values |
| AddItem.NewCustomDraft | AddItemSheetView.swift:37-41 | a custom sheet starts with exactly one empty value per field |
| AddItem.InputFor | AddItemSheetView.swift:120-151 | a field gets the name text box exactly when its lowercased label contains "name", the year picker exactly when the label contains "year" but not "name", and a plain text box otherwise |
| AddItem.ApplyEdit | AddItemSheetView.swift:120-163 | an edit never changes the sheet's category and keeps the one-value-per-field invariant; only typing into a value box changes the values, and it changes nothing else; typing takes effect only on a custom form, in a row that exists and is not the year picker |
| AddItem.NameFieldInput | AddItemSheetView.swift:120-131 | the fixed "Name" field is a name text field |
| AddItem.YearOfFoundationInput | AddItemSheetView.swift:132-151 | the fixed "Year of foundation" field is the year picker |
| AddItem.EditsKeepTarget | AddItemSheetView.swift:16-17 | no edit changes which category the sheet is for |
| AddItem.EditsKeepReachable | AddItemSheetView.swift:120-163 | after any edits, a custom form still has one value per field and every year-picker field's value is "" |
| AddItem.FreshDraftsReachable | AddItemSheetView.swift:33-41 | freshly opened sheets satisfy that invariant |
| AddItem.Save | AddItemSheetView.swift:168-229 | saving fails exactly when the name (built-in) or first value (custom) is missing or blank; the year is the picked one or 0; built-in items get the raw category, color only for `Other`, country and collection only for coin and banknote; custom items get the first value as name, no color or country, and the encoded field map or nil |
| AddItem.BuiltinSaveKeepsRelevantText | AddItemSheetView.swift:209-215 | a saved coin or banknote keeps the typed country and collection, and an `Other` item keeps the typed color |
| AddItem.NoYearSavesZero | AddItemSheetView.swift:211-219 | without a picked year the saved year is 0 |
| AddItem.BlankNameNeverSaved | AddItemSheetView.swift:169-173 | a whitespace-only name never produces a record |
| AddItem.CustomSaveStoresFields | AddItemSheetView.swift:216-228 | under the codec assumptions (`RoundTrips`, `EncodesAll`) the stored map has exactly the category's fields as keys, holds each field's value by position, and holds "" for year-picker fields |
| Filter.FilteredItems | FilterView.swift:33-48 | the filtered list holds exactly the input items that match, each as many times as in the input, and is no longer than the input |
| Filter.Matches | FilterView.swift:33-46 | an item passes exactly when no category is ticked or its category is ticked, and for every constrained field every value the item has for that field is allowed |
| Filter.ExcludedBy | FilterView.swift:38-45 | a field constraint rejects an item exactly when the set of values the item has for the field (country, non-zero year, collection text, field-map entry) is not contained in the allowed set |
| Filter.MissingValuePasses | FilterView.swift:39-44 | an item without a value for the field passes that field's constraint, even an empty one |
| Filter.EmptyAllowedRejectsPresent | FilterView.swift:39-44 | an empty allowed set rejects every item that has a value for the field |
| Filter.UnsetYearIgnoresYearConstraint | FilterView.swift:40 | the Year test never rejects an item whose year is 0; only a "Year" entry of its field map can |
| Filter.SetYearMustBeAllowed | FilterView.swift:40 | with a year set (and no "Year" map entry) the item passes exactly when its decimal year is allowed |
| Filter.BareItemPassesEveryConstraint | FilterView.swift:38-46 | an item without country, year or collection passes every field constraint |
| Filter.LenientNotStrict | FilterView.swift:35-46 | a coin with no year passes a Year constraint that allows only "2000" |
| Filter.NoSelectionKeepsAll | FilterView.swift:33-48 | with nothing selected the result is the input |
| Filter.FilteredKeepsOrder | FilterView.swift:33-48 | the result is an order-preserving subsequence of the input |
| Filter.ToggleCategory | FilterView.swift:63-70 | tapping a category flips its membership and nothing else's; ticking expands it; unticking collapses it if it was expanded |
| Filter.ToggleExpanded | FilterView.swift:80-82 | the chevron expands the category exactly when it was not expanded |
| Filter.ToggleValue | FilterView.swift:101-108 | tapping a value flips its membership in the field's set, keeps the key, and leaves other fields alone |
| Filter.Reset | FilterView.swift:131-135 | reset empties both selections and the expansion |
| Filter.SelectDefault | FilterView.swift:156-159 | with nothing ticked, the first category is ticked and expanded; otherwise nothing changes |
| Filter.ToggleValueTwice | FilterView.swift:101-108 | tapping a value twice restores its membership, and the whole selection when the field already had a set |
| Filter.ToggleCategoryTwice | FilterView.swift:63-70 | tapping a category twice restores the ticked set |
| Filter.UntickLastValue | FilterView.swift:101-108 | unticking a field's last value leaves an empty set under the key, and every item with a value for the field is then filtered out |
| Filter.ResetShowsAll | FilterView.swift:131-135 | after a reset the filtered list is every item |
| Filter.SelectDefaultIdempotent | FilterView.swift:219-222 | choosing the default twice is choosing it once, and something is ticked whenever a category exists |
| Facets.InsertSorted | FilterView.swift:201 | inserting into a strictly sorted list keeps it strictly sorted and adds exactly the new element |
| Facets.SortedDistinct | FilterView.swift:201 | `Array(Set(values)).sorted()` is strictly ascending with the same elements as the input |
| Facets.SortedUnique | FilterView.swift:201 | two strictly ascending lists with the same elements are equal |
| Facets.SortedDistinctDependsOnlyOnElements | FilterView.swift:201 | the facet list depends only on the set of values, not their order or repetition |
| Facets.CompactMap | FilterView.swift:198 | `compactMap` yields exactly the values the function produces on some element |
| Facets.AllCategories | FilterView.swift:187-189 | the category list is "Coin", "Banknote", then the custom names in list order |
| Facets.BuildFacets | FilterView.swift:185-217 | the facet map has an entry for "Coin", for "Banknote" and for each custom category name, and for nothing else |
| Facets.BuildFacetsEntries | FilterView.swift:185-217 | there is one facet entry per listed category; the built-in entries are the built-in facets unless a custom category reuses the name; the last custom category with a name provides its entry |
| Facets.AddCustomFacetsLastWins | FilterView.swift:204-216 | a later custom category with the same name replaces an earlier one's facets |
| Facets.FacetMembers | FilterView.swift:195-201 | a facet list is strictly sorted and holds exactly the values of the category's items |
| Facets.BuiltinFacetValues | FilterView.swift:193-201 | coin and banknote facets are Country, Year and Collection, drawn only from that category's items, without nil values or year "0", sorted without repeats |
| Facets.CustomFacetValues | FilterView.swift:204-215 | a custom facet has one key per field, and a value appears exactly when some item of the category decodes to a map holding it under that field |
| Facets.TwoCoinsCountryFacet | FilterView.swift:198-201 | coins from Spain and France give the Country facet ["France", "Spain"] |
| Facets.TwoItemsCountryFacet | FilterView.swift:193-201 | two items of one category with different countries give a Country facet holding both countries in ascending order |
| Cluster.SameTabCases | ClusterView.swift:296-305 | two custom tabs are equal exactly when their ids are; coins, banknotes and custom tabs are pairwise unequal |
| Cluster.SameTabEquivalence | ClusterView.swift:296-305 | tab equality is reflexive, symmetric and transitive |
| Cluster.SameTabIgnoresNameAndFields | ClusterView.swift:301-302 | renaming a custom category or changing its fields keeps its tab |
| Cluster.TabCategory | ClusterView.swift:38-45 | each tab's category string is the raw value or the custom category's name |
| Cluster.TabItems | ClusterView.swift:34-62 | the grid shows exactly the given items the tab or the filter parameters admit, each as many times as in the input |
| Cluster.ShownOnTab | ClusterView.swift:34-59 | without filter parameters an item is shown exactly when its category is the tab's; with parameters and no ticked category nothing is shown; otherwise an item is shown exactly when the filter screen's `Matches` admits it |
| Cluster.TabListsItsCategory | ClusterView.swift:36-46 | without filter parameters a tab lists exactly its category's items, in the order of the given list |
| Cluster.NoTickedCategoryShowsNothing | ClusterView.swift:48 | with filter parameters and no ticked category the grid is empty |
| Cluster.TabFilterAgreesWithFilterScreen | ClusterView.swift:47-60 | with some category ticked, the grid's filter and the filter screen's filter keep the same items of one and the same item list |
| Cluster.AddSheetFor | ClusterView.swift:200-206 | the add button opens the sheet for the tab's category |
| Cluster.SavedItemShowsOnTab | ClusterView.swift:200-206 | whatever is typed, an item saved from a tab's sheet is listed on that tab |
| Cluster.AddFieldTapped | ClusterView.swift:378-383 | "+" appends a non-blank pending field and clears it; a blank one changes nothing |
| Cluster.ApplyCategoryEdit | ClusterView.swift:324-383 | only typing the name changes the name; typing the name or the pending field leaves the rows alone; deleting a row removes exactly one copy of that row's text; no edit but typing into a row can make a row blank |
| Cluster.DeleteRowCount | ClusterView.swift:364 | removing row i leaves the other rows: exactly one copy of row i's text is gone |
| Cluster.RowsStayNonBlank | ClusterView.swift:356-383 | as long as rows are only added and deleted, every added row is non-blank |
| Cluster.CreateCategory | ClusterView.swift:391-406 | a blank name is refused; otherwise the fields start with "Name", "Year of foundation" and continue with exactly the non-blank entered fields, duplicates kept, each as many times as entered |
| Cluster.CreatedFieldsInOrder | ClusterView.swift:392-400 | the added fields keep their entry order |
| Cluster.CreatedKeepsNonBlankRows | ClusterView.swift:392-400 | when no row is blank, nothing is dropped and duplicates are kept |
| Cluster.CreatedFromButtons | ClusterView.swift:355-400 | a category built with the sheet's buttons has exactly the fixed fields, the added rows and the non-blank pending row |
| Cluster.SaveCategory | ClusterView.swift:208-211 | a created category is appended with earlier entries unchanged; a refused one leaves the list as it was |
| Cluster.SavedCategoryListedLast | ClusterView.swift:208-211 | a saved category becomes the last entry of the filter screen's category list |
| Cluster.BeginEdit | ClusterView.swift:525-531 | edit mode shows the decoded field map, the name, and the country, with "" for missing ones |
| Cluster.SetCustomField | ClusterView.swift:600-603 | typing into a custom field sets that key to the typed text; a key already in the map (the only kind the screen offers) leaves the key set as it was; every other key and every other text of the form is unchanged |
| Cluster.SaveEdit | ClusterView.swift:632-641 | saving an edit keeps category and color, sets name and country, parses the year (0 if unparsable), and stores the encoded map when it is non-empty, the collection text otherwise |
| Cluster.EditYearBlankIffUnset | ClusterView.swift:528 | the year box is empty exactly when the year is 0 |
| Cluster.UnchangedEditKeepsScalars | ClusterView.swift:525-641 | entering and leaving edit mode without typing keeps year, category, color and any name |
| Cluster.UnchangedEditKeepsCollection | ClusterView.swift:525-641 | entering and leaving edit mode without typing keeps the field map (under the codec assumptions `RoundTrips` and `EncodesAll`) or the collection text |
| Cluster.EditCustomFieldThenSave | ClusterView.swift:592-641 | typing into one decoded custom field and tapping "Back" stores a map with the same keys, that field holding the typed text and the others their old values (under the codec assumptions `RoundTrips` and `EncodesAll`) |
| App.SplashTransitions | ContentView.swift:19-35 | after the splash a returning user gets the main screen; a new user gets onboarding exactly when photo access is authorized or limited, and the permission prompt otherwise |
| App.PermissionAlwaysOnboards | ContentView.swift:36-39 | the permission prompt leads to onboarding whatever the answer |
| App.OnboardingThenMain | ContentView.swift:40-46 | completing onboarding sets the flag and opens the main screen, which has no way out |
| App.NextProgresses | ContentView.swift:24-48 | no callback moves the flow backwards or clears the flag |
| App.Next | ContentView.swift:24-48 | a callback changes the state exactly when it belongs to the screen on show (the splash timer on the splash, the permission answer on the prompt, completion on onboarding); the flow never moves backwards; the flag is never cleared and changes only from onboarding to main; the main screen is entered only with the flag set |
| App.RunInvariant | ContentView.swift:24-48 | along any run from launch the main screen is shown only with the flag set, and with the flag set only splash or main are shown |
| App.NewUserReachesMain | ContentView.swift:24-48 | a new user reaches the main screen in two callbacks when access is granted, and in three otherwise |
| App.HexDigitValue | ContentView.swift:56 | exactly 0-9, a-f and A-F are hex digits, with values below 16 |
| App.HexPrefixLength | ContentView.swift:56 | the scan reads the longest prefix of hex digits |
| App.ScanHex | ContentView.swift:53-56 | after an optional "#", the scanned value is below 16^n for the n hex digits read, and a text with no hex digit scans as 0; `App.ScanHashDigits` and `App.ScanBareDigits` give the scanned value itself |
| App.HexValueBelow | ContentView.swift:56 | n hex digits hold a value below 16^n |
| App.HexPrefixOf | ContentView.swift:56 | the digit scan reads exactly the hex digits before the first non-hex character |
| App.ScanHashDigits | ContentView.swift:53-56 | "#", hex digits, then text not starting with a hex digit scans as the value of those digits ("#12zz" gives 0x12) |
| App.ScanBareDigits | ContentView.swift:53-56 | without the "#", a non-empty run of hex digits followed by text not starting with a hex digit scans as the value of those digits |
| App.Channels | ContentView.swift:53-59 | each channel is in 0..255, and together they reassemble the low 24 bits of the scanned value |
| App.PackedChannels | ContentView.swift:57-59 | the three masked shifts reassemble the value modulo 2^24 |
| App.HexValueAppend | ContentView.swift:56 | the value of concatenated hex digits is the first part shifted left plus the second |
| App.SixDigitChannels | ContentView.swift:53-59 | for "#RRGGBB" the channels are the values of the three digit pairs |
| App.BrandBlue | ContentView.swift:52-59 | "#1D3D98" gives (0x1D, 0x3D, 0x98) |
| Onboarding.Press | OnboardingView.swift:14-34 | Continue moves one page on and completes on the last page; Skip completes from every page; a swipe moves at most one page |
| Onboarding.CompletedStays | OnboardingView.swift:11 | once onboarding has completed, nothing more happens |
| Onboarding.SwipesNeverComplete | OnboardingView.swift:14-47 | swiping alone never completes onboarding |
| Onboarding.RunPager | OnboardingView.swift:10-47 | a pager still showing after a run of events was showing before and saw no Skip, and its page moved by at most one per event |
| Onboarding.ButtonsComplete | OnboardingView.swift:14-34 | pressing buttons only, onboarding completes after as many presses as there are pages left |
| Onboarding.FourContinuesComplete | OnboardingView.swift:10-34 | from page 0, four Continues complete onboarding and three leave page 3 showing |
| Scenarios.CountryIsText | AddItemSheetView.swift:152-162 | a "Country" field is a plain text field |
| Scenarios.StampStep3 | AddItemSheetView.swift:132-151 | typing into the "Year of foundation" row changes nothing |
| Scenarios.StampDraft | AddItemSheetView.swift:120-163 | typing a name, picking 1840 and typing "UK" gives values ["Penny Black", "", "UK"] and year 1840 |
| Scenarios.StampSaved | AddItemSheetView.swift:216-228 | the saved stamp has year 1840 and, under the codec assumptions (`RoundTrips`, `EncodesAll`), the field map {Name: Penny Black, Year of foundation: "", Country: UK} |
| Scenarios.StampFilteredByCountry | FilterView.swift:42-44 | under the codec assumptions (`RoundTrips`, `EncodesAll`), the saved stamp passes a Country constraint on "UK" through its field map and fails one on "France" |
| Scenarios.YearlessCoin | AddItemSheetView.swift:211 | a coin saved without a year has year 0 and passes every Year constraint, given that the empty collection text does not decode to a map with a "Year" key (a JSON decoder rejects "") |

## Left out

- Persistence: Core Data fetches, saves and deletes, and the UserDefaults
  load and save of custom categories, are I/O. Items are a `seq<Item>` and
  categories a `seq<CustomCategory>`.
- JSON encoding and decoding: foreign calls. They are the abstract
  `FieldCodec`. Its round trip (`RoundTrips`) and the totality of its
  encoder on string maps (`EncodesAll`) are assumptions, not proofs; the
  lemmas that need them say so in their preconditions.
- Images: photo picking, JPEG compression and `UIImage` decoding are
  foreign and asynchronous.
- The permission request and the splash timer are asynchronous system
  calls. The photo status and the permission answer are event parameters.
- The layout-only views (the onboarding pages, the photo view, the main tab
  view, the app entry point) hold no logic.
- AddCategorySheetView.swift is entirely commented out. The live sheet is
  the one in ClusterView.swift, which is modelled.
- App.Channels: the `Double(...) / 255` conversion is floating point, so
  only the integer channels are modelled.
- App.HexPrefixLength: `Scanner` also skips leading whitespace, accepts a
  "0x" prefix and saturates on overflow; none of these is modelled.
- The item card's name lookup (`dict.first(where:)`) depends on unspecified
  dictionary iteration order.
- The year picker's range (1900 to the current year) depends on the clock.
  A picked year is any `Int32`.
- Text.Lower: `lowercased()` is modelled for ASCII letters only.
- Facets.SortedDistinct: `sorted()` on strings is modelled as
  lexicographic order on characters.
- Text.IsWhitespace: `CharacterSet.whitespaces` is modelled as tab plus the
  Unicode space separators.
- Facets.BuildFacets: the gate that skips rebuilding while there are no
  categories and no items is view refresh logic and is not modelled.
- AddItem.Save: the `Int32(selectedYear!)` conversion traps outside the
  32-bit range. Here the picked year is already an `Int32`, so the trap
  cannot occur.
- The ordering of facet keys on screen (`fields.keys.sorted()`) and of
  custom fields in the detail sheet is presentation only.
- Fetch order: the grid's fetch sorts items by name
  (ClusterView.swift:11-13) and the filter screen's fetch has no sort
  (FilterView.swift:18-21). Both filters take the `items` sequence in the
  order given, so the model states order relative to that sequence, not the
  order either screen displays.
- String equality: Swift compares `String`s by Unicode canonical
  equivalence (in `Set.contains`, as dictionary keys, and in
  `item.category == name`, FilterView.swift:35,195 and
  ClusterView.swift:40-48). The model compares sequences of code points, so
  two canonically equivalent but differently encoded strings are distinct
  here.
- App.Next: a callback that does not belong to the screen on show leaves
  the state unchanged (`FiredOnScreen`). In the source every closure assigns
  `currentStep` unconditionally (ContentView.swift:27-44); the model rests on
  the assumption that only the view on screen fires its callback, so a
  stale timer or permission answer arriving after the step has moved on is
  not modelled.
- Cluster.SetCustomField: it also accepts a key that is not in the map,
  which the screen never offers; that case adds the key.

=== FILE: add_item.dfy ===
/** The "New item" sheet: the form state for a built-in or custom category,
    how each custom field is bound to an input, the required-name check,
    and the record written on save (AddItemSheetView.swift). */
module AddItem {
  import opened Base
  import opened Text
  import opened Records

  /** The sheet is opened either for a built-in category or for a custom one. */
  datatype Target = BuiltIn(kind: ItemCategory) | Custom(custom: CustomCategory)

  /** The sheet's form state. `values` holds one text per custom field;
      `selectedYear` is the year picker's choice. Images are not modelled. */
  datatype Draft = Draft(
    target: Target,
    name: string,
    color: string,
    country: string,
    collection: string,
    selectedYear: Option<Int32>,
    values: seq<string>)

  /** `init(category:)`. */
  function NewBuiltinDraft(kind: ItemCategory): (d: Draft)
    ensures d.target == BuiltIn(kind) && d.selectedYear.None? && d.values == []
    ensures d.name == "" && d.color == "" && d.country == "" && d.collection == ""
  {
    Draft(BuiltIn(kind), "", "", "", "", None, [])
  }

  /** `init(customCategory:)`: one empty value per field. */
  function NewCustomDraft(c: CustomCategory): (d: Draft)
    ensures d.target == Custom(c) && d.selectedYear.None?
    ensures |d.values| == |c.fields|
    ensures forall i | 0 <= i < |d.values| :: d.values[i] == ""
  {
    Draft(Custom(c), "", "", "", "", None, seq(|c.fields|, _ => ""))
  }

  /** How a custom field is presented: a name field, the year picker, or a
      plain text field. A field whose lower-cased title contains "name" is a
      name field even if it also contains "year". */
  datatype FieldInput = NameInput | YearPicker | TextInput

  function InputFor(field: string): (r: FieldInput)
    ensures r == NameInput <==> Contains(Lower(field), "name")
    ensures r == YearPicker <==> Contains(Lower(field), "year") && !Contains(Lower(field), "name")
  {
    if Contains(Lower(field), "name") then NameInput
    else if Contains(Lower(field), "year") then YearPicker
    else TextInput
  }

  /** The first fixed field of every custom category is a name field. */
  lemma NameFieldInput()
    ensures InputFor("Name") == NameInput
  {
    assert Lower("Name") == "name";
    assert StartsWith("name", "name");
  }

  /** The second fixed field is bound to the year picker, so it is never
      typed into. */
  lemma YearOfFoundationInput()
    ensures InputFor("Year of foundation") == YearPicker
  {
    var f := "Year of foundation";
    var lower := Lower(f);
    assert lower[..4] == "year" by {
      assert lower[0] == 'y' && lower[1] == 'e' && lower[2] == 'a' && lower[3] == 'r';
    }
    assert StartsWith(lower, "year");
    LowerLacks(f, 'm');
    MissingCharNotContained(lower, "name", 2);
  }

  /** The user's edits on the sheet. */
  datatype TextSlot = NameSlot | ColorSlot | CountrySlot | CollectionSlot
  datatype Edit =
    | TypeText(slot: TextSlot, text: string)
    | TypeValue(index: nat, text: string)
    | PickYear(year: Int32)

  /** Applies one edit. Typing into custom field `index` goes through the
      field's text binding, which overwrites the value in place or appends
      when the list is too short; a year-picker field has no text binding,
      so typing there is impossible and is a no-op here. */
  function ApplyEdit(d: Draft, e: Edit): (r: Draft)
    ensures r.target == d.target
    ensures Reachable(d) ==> Reachable(r)
    ensures !e.TypeValue? ==> r.values == d.values
    ensures e.TypeValue? ==> r.(values := d.values) == d
    ensures e.TypeValue? && r.values != d.values ==>
              && d.target.Custom?
              && e.index < |d.target.custom.fields|
              && InputFor(d.target.custom.fields[e.index]) != YearPicker
  {
    match e
    case TypeText(NameSlot, t) => d.(name := t)
    case TypeText(ColorSlot, t) => d.(color := t)
    case TypeText(CountrySlot, t) => d.(country := t)
    case TypeText(CollectionSlot, t) => d.(collection := t)
    case PickYear(y) => d.(selectedYear := Some(y))
    case TypeValue(i, t) =>
      if d.target.Custom? && i < |d.target.custom.fields| && InputFor(d.target.custom.fields[i]) != YearPicker then
        if i < |d.values| then d.(values := d.values[i := t]) else d.(values := d.values + [t])
      else d
  }

  function ApplyEdits(d: Draft, es: seq<Edit>): Draft
    decreases |es|
  {
    if |es| == 0 then d else ApplyEdits(ApplyEdit(d, es[0]), es[1..])
  }

  /** What holds of every custom form the user can produce: one value per
      field, and the value of every year-picker field is still "". */
  predicate Reachable(d: Draft) {
    d.target.Custom? ==>
      && |d.values| == |d.target.custom.fields|
      && forall i | 0 <= i < |d.values| && InputFor(d.target.custom.fields[i]) == YearPicker :: d.values[i] == ""
  }

  /** Editing never changes which category the sheet is for. */
  lemma {:induction false} EditsKeepTarget(d: Draft, es: seq<Edit>)
    ensures ApplyEdits(d, es).target == d.target
    decreases |es|
  {
    if |es| > 0 {
      EditsKeepTarget(ApplyEdit(d, es[0]), es[1..]);
    }
  }

  /** Every sequence of edits from a fresh sheet keeps the form reachable:
      a year-picker field's value is never filled in. */
  lemma {:induction false} EditsKeepReachable(d: Draft, es: seq<Edit>)
    requires Reachable(d)
    ensures Reachable(ApplyEdits(d, es))
    decreases |es|
  {
    if |es| > 0 {
      EditsKeepReachable(ApplyEdit(d, es[0]), es[1..]);
    }
  }

  lemma FreshDraftsReachable(kind: ItemCategory, c: CustomCategory)
    ensures Reachable(NewBuiltinDraft(kind)) && Reachable(NewCustomDraft(c))
  {
  }

  /** Why the Add button refuses to save. */
  datatype AddError = NameRequired

  /** The Add button's check: a built-in item needs a name, a custom item
      needs a first value, both non-blank after trimming. */
  predicate NameMissing(d: Draft) {
    match d.target
    case BuiltIn(_) => IsBlank(d.name)
    case Custom(_) => |d.values| == 0 || IsBlank(d.values[0])
  }

  /** Saving a custom item pairs fields with values in a dictionary that
      traps on a repeated key among the paired fields. */
  predicate SaveDoesNotTrap(d: Draft) {
    d.target.Custom? && !NameMissing(d) ==>
      Distinct(d.target.custom.fields[..Min(|d.target.custom.fields|, |d.values|)])
  }

  /** The field map a custom item is saved with. */
  function FieldMap(d: Draft): map<string, string>
    requires d.target.Custom?
    requires Distinct(d.target.custom.fields[..Min(|d.target.custom.fields|, |d.values|)])
  {
    ZipMap(d.target.custom.fields, d.values)
  }

  /** The Add button: validation, then `saveItemToCoreData`. */
  function Save(d: Draft, codec: FieldCodec): (r: Result<Item, AddError>)
    requires SaveDoesNotTrap(d)
    ensures r.Err? <==> NameMissing(d)
    ensures r.Ok? ==> r.value.year == d.selectedYear.GetOr(0)
    ensures r.Ok? && d.target.BuiltIn? ==>
              && r.value.name == Some(d.name)
              && r.value.category == Some(d.target.kind.RawValue())
              && (r.value.color.Some? <==> d.target.kind == Other)
              && (r.value.country.Some? <==> d.target.kind != Other)
              && (r.value.collection.Some? <==> d.target.kind != Other)
    ensures r.Ok? && d.target.Custom? ==>
              && r.value.name == Some(d.values[0])
              && r.value.category == Some(d.target.custom.name)
              && r.value.color.None? && r.value.country.None?
              && (r.value.collection.Some? <==> codec.encode(FieldMap(d)).Some?)
  {
    if NameMissing(d) then Err(NameRequired)
    else
      var year: Int32 := d.selectedYear.GetOr(0);
      match d.target
      case BuiltIn(kind) =>
        var hasPlace := kind == Coin || kind == Banknote;
        Ok(Item(Some(d.name), year, Some(kind.RawValue()),
                if kind == Other then Some(d.color) else None,
                if hasPlace then Some(d.country) else None,
                if hasPlace then Some(d.collection) else None))
      case Custom(c) =>
        Ok(Item(Some(if |d.values| > 0 then d.values[0] else ""), year, Some(c.name),
                None, None, codec.encode(FieldMap(d))))
  }

  /** A built-in item keeps the typed country and collection only for coins
      and banknotes, and the typed color only for `Other`. */
  lemma BuiltinSaveKeepsRelevantText(d: Draft, codec: FieldCodec)
    requires d.target.BuiltIn? && !IsBlank(d.name)
    ensures var item := Save(d, codec).value;
            && (d.target.kind != Other ==> item.country == Some(d.country) && item.collection == Some(d.collection))
            && (d.target.kind == Other ==> item.color == Some(d.color))
  {
  }

  /** Saving without picking a year stores the sentinel 0. */
  lemma NoYearSavesZero(d: Draft, codec: FieldCodec)
    requires SaveDoesNotTrap(d) && !NameMissing(d) && d.selectedYear.None?
    ensures Save(d, codec).value.year == 0
  {
  }

  /** A blank name never produces a record, whatever else was typed. */
  lemma BlankNameNeverSaved(d: Draft, codec: FieldCodec)
    requires d.target.BuiltIn? && AllWhitespace(d.name)
    ensures Save(d, codec).Err?
  {
    BlankIffAllWhitespace(d.name);
  }

  /** Under the codec assumptions, a saved custom item's stored map gives back
      each field's value by position, and a year-picker field reads "". */
  lemma CustomSaveStoresFields(d: Draft, codec: FieldCodec)
    requires RoundTrips(codec) && EncodesAll(codec)
    requires d.target.Custom? && Reachable(d) && Distinct(d.target.custom.fields)
    requires !NameMissing(d)
    ensures var fields := d.target.custom.fields;
            var stored := DecodeCustomFields(codec, Save(d, codec).value.collection);
            && stored.Keys == set f | f in fields
            && (forall i | 0 <= i < |fields| :: stored[fields[i]] == d.values[i])
            && (forall i | 0 <= i < |fields| && InputFor(fields[i]) == YearPicker :: stored[fields[i]] == "")
  {
    var fields := d.target.custom.fields;
    assert fields[..Min(|fields|, |d.values|)] == fields;
    var m := FieldMap(d);
    assert codec.encode(m).Some?;
    assert m.Keys == set f | f in fields by {
      forall f | f in fields
        ensures f in m.Keys
      {
        var i :| 0 <= i < |fields| && fields[i] == f;
      }
    }
  }
}

=== FILE: app.dfy ===
/** The root view's step machine (splash, photo permission, onboarding,
    main) and the integer part of the `Color(hex:)` initializer
    (ContentView.swift). */
module App {
  import opened Base

  datatype Step = Splash | Permission | Onboarding | Main

  /** Photo-library authorization as the system reports it. */
  datatype PhotoStatus = NotDetermined | Restricted | Denied | Authorized | Limited

  /** `checkPhotoPermission`. */
  predicate PhotoAccessGranted(status: PhotoStatus) {
    status == Authorized || status == Limited
  }

  /** The current step and the persisted "onboarding seen" flag. */
  datatype AppState = AppState(step: Step, hasSeenOnboarding: bool)

  /** The callbacks the step views fire. The permission view fires its
      callback after "Deny" and after "Allow" alike. */
  datatype AppEvent =
    | SplashFinished(status: PhotoStatus)
    | PermissionAnswered(allowed: bool)
    | OnboardingCompleted

  /** The app always starts on the splash step; the flag persists. */
  function Launch(hasSeenOnboarding: bool): AppState {
    AppState(Splash, hasSeenOnboarding)
  }

  /** One callback. A callback of a view that is not on screen cannot fire,
      so it changes nothing. */
  function Next(s: AppState, e: AppEvent): (r: AppState)
    ensures r != s <==> FiredOnScreen(s.step, e)
    ensures Rank(r.step) >= Rank(s.step)
    ensures s.hasSeenOnboarding ==> r.hasSeenOnboarding
    ensures r.hasSeenOnboarding != s.hasSeenOnboarding ==> s.step == Onboarding && r.step == Main
    ensures r.step == Main && s.step != Main ==> r.hasSeenOnboarding
  {
    match (s.step, e)
    case (Splash, SplashFinished(status)) =>
      if s.hasSeenOnboarding then s.(step := Main)
      else if PhotoAccessGranted(status) then s.(step := Onboarding)
      else s.(step := Permission)
    case (Permission, PermissionAnswered(_)) => s.(step := Onboarding)
    case (Onboarding, OnboardingCompleted) => AppState(Main, true)
    case _ => s
  }

  /** Whether `e` is the callback of the view shown at `step`; the main
      screen fires none. */
  predicate FiredOnScreen(step: Step, e: AppEvent) {
    match (step, e)
    case (Splash, SplashFinished(_)) => true
    case (Permission, PermissionAnswered(_)) => true
    case (Onboarding, OnboardingCompleted) => true
    case _ => false
  }

  function Run(s: AppState, es: seq<AppEvent>): AppState
    decreases |es|
  {
    if |es| == 0 then s else Run(Next(s, es[0]), es[1..])
  }

  /** Position of a step in the flow. */
  function Rank(step: Step): nat {
    match step
    case Splash => 0
    case Permission => 1
    case Onboarding => 2
    case Main => 3
  }

  /** The splash step: a returning user goes straight to the main screen; a
      new user goes to onboarding when photo access is already granted
      (authorized or limited) and to the permission prompt otherwise. */
  lemma SplashTransitions(hasSeen: bool, status: PhotoStatus)
    ensures hasSeen ==> Next(Launch(hasSeen), SplashFinished(status)).step == Main
    ensures !hasSeen ==>
              (Next(Launch(hasSeen), SplashFinished(status)).step == Onboarding <==>
                 (status == Authorized || status == Limited))
    ensures !hasSeen && status != Authorized && status != Limited ==>
              Next(Launch(hasSeen), SplashFinished(status)).step == Permission
  {
  }

  /** The permission prompt leads to onboarding whatever the answer. */
  lemma PermissionAlwaysOnboards(seen: bool, allowed: bool)
    ensures Next(AppState(Permission, seen), PermissionAnswered(allowed)) == AppState(Onboarding, seen)
  {
  }

  /** Completing onboarding records it and opens the main screen, which has
      no way out. */
  lemma OnboardingThenMain(seen: bool, e: AppEvent)
    ensures Next(AppState(Onboarding, seen), OnboardingCompleted) == AppState(Main, true)
    ensures Next(AppState(Main, seen), e) == AppState(Main, seen)
  {
  }

  /** Every callback moves forward or not at all, and the flag never resets. */
  lemma NextProgresses(s: AppState, e: AppEvent)
    ensures Rank(Next(s, e).step) >= Rank(s.step)
    ensures s.hasSeenOnboarding ==> Next(s, e).hasSeenOnboarding
  {
  }

  /** From launch, the main screen is only ever shown with the onboarding
      flag set, and a user who has seen onboarding never sees the other
      steps again. */
  lemma {:induction false} RunInvariant(s: AppState, es: seq<AppEvent>)
    requires s.step == Main ==> s.hasSeenOnboarding
    requires s.hasSeenOnboarding ==> s.step in {Splash, Main}
    ensures var t := Run(s, es);
            (t.step == Main ==> t.hasSeenOnboarding)
            && (t.hasSeenOnboarding ==> t.step in {Splash, Main})
            && Rank(t.step) >= Rank(s.step)
    decreases |es|
  {
    if |es| > 0 {
      NextProgresses(s, es[0]);
      RunInvariant(Next(s, es[0]), es[1..]);
    }
  }

  /** A new user reaches the main screen in at most three callbacks. */
  lemma NewUserReachesMain(status: PhotoStatus, allowed: bool)
    ensures PhotoAccessGranted(status) ==>
              Run(Launch(false), [SplashFinished(status), OnboardingCompleted]) == AppState(Main, true)
    ensures !PhotoAccessGranted(status) ==>
              Run(Launch(false), [SplashFinished(status), PermissionAnswered(allowed), OnboardingCompleted])
                == AppState(Main, true)
  {
    var done := AppState(Main, true);
    var last: seq<AppEvent> := [OnboardingCompleted];
    assert Run(AppState(Onboarding, false), last) == Run(done, last[1..]) == done;
    if PhotoAccessGranted(status) {
      var es := [SplashFinished(status), OnboardingCompleted];
      assert es[1..] == last;
    } else {
      var es := [SplashFinished(status), PermissionAnswered(allowed), OnboardingCompleted];
      var tail := [PermissionAnswered(allowed), OnboardingCompleted];
      assert es[1..] == tail && tail[1..] == last;
      assert Run(AppState(Permission, false), tail) == Run(AppState(Onboarding, false), last);
    }
  }

  // ---------------------------------------------------------------------------
  // Hex colours
  // ---------------------------------------------------------------------------

  function HexDigitValue(c: char): (v: Option<nat>)
    ensures v.Some? <==> ('0' <= c <= '9' || 'a' <= c <= 'f' || 'A' <= c <= 'F')
    ensures v.Some? ==> v.value < 16
  {
    if '0' <= c <= '9' then Some(c as int - '0' as int)
    else if 'a' <= c <= 'f' then Some(c as int - 'a' as int + 10)
    else if 'A' <= c <= 'F' then Some(c as int - 'A' as int + 10)
    else None
  }

  predicate AllHex(s: string) {
    forall i | 0 <= i < |s| :: HexDigitValue(s[i]).Some?
  }

  /** Value of a string of hex digits, most significant first. */
  function HexValue(s: string): nat
    requires AllHex(s)
  {
    if |s| == 0 then 0
    else HexValue(s[..|s| - 1]) * 16 + HexDigitValue(s[|s| - 1]).value
  }

  /** Length of the longest prefix made of hex digits. */
  function HexPrefixLength(s: string): (n: nat)
    ensures n <= |s| && AllHex(s[..n])
    ensures n < |s| ==> HexDigitValue(s[n]).None?
  {
    if |s| == 0 || HexDigitValue(s[0]).None? then 0
    else
      var n := 1 + HexPrefixLength(s[1..]);
      assert s[..n] == [s[0]] + s[1..][..n - 1];
      n
  }

  /** `scanString("#")` then `scanHexInt64`: an optional '#' is skipped and
      the following hex digits are read; no digits read as 0. */
  function ScanHex(text: string): (r: nat)
    ensures var body := if |text| > 0 && text[0] == '#' then text[1..] else text;
            r < Pow16(HexPrefixLength(body))
    ensures (forall i | 0 <= i < |text| :: HexDigitValue(text[i]).None?) ==> r == 0
  {
    var body := if |text| > 0 && text[0] == '#' then text[1..] else text;
    HexValueBelow(body[..HexPrefixLength(body)]);
    HexValue(body[..HexPrefixLength(body)])
  }

  /** `n` hex digits hold a value below 16^n. */
  lemma {:induction false} HexValueBelow(s: string)
    requires AllHex(s)
    ensures HexValue(s) < Pow16(|s|)
    decreases |s|
  {
    if |s| > 0 {
      var p := s[..|s| - 1];
      HexValueBelow(p);
      assert HexValue(s) == HexValue(p) * 16 + HexDigitValue(s[|s| - 1]).value;
      assert (HexValue(p) + 1) * 16 <= Pow16(|p|) * 16;
    }
  }

  /** The red, green and blue channels: bits 16-23, 8-15 and 0-7. */
  function Channels(text: string): (rgb: (nat, nat, nat))
    ensures rgb.0 < 256 && rgb.1 < 256 && rgb.2 < 256
    ensures rgb.0 * 65536 + rgb.1 * 256 + rgb.2 == ScanHex(text) % 16777216
  {
    var v := ScanHex(text);
    PackedChannels(v);
    ((v / 65536) % 256, (v / 256) % 256, v % 256)
  }

  /** The three extracted bytes reassemble the low 24 bits. */
  lemma PackedChannels(v: nat)
    ensures (v / 65536) % 256 * 65536 + (v / 256) % 256 * 256 + v % 256 == v % 16777216
  {
    var b, q := v % 256, v / 256;
    var g, p := q % 256, q / 256;
    var r, t := p % 256, p / 256;
    assert v == 256 * q + b && q == 256 * p + g && p == 256 * t + r;
    assert v == 65536 * p + (256 * g + b);
    assert v / 65536 == p;
    assert v == 16777216 * t + (65536 * r + 256 * g + b);
    assert v % 16777216 == 65536 * r + 256 * g + b;
  }

  lemma {:induction false} HexValueAppend(a: string, b: string)
    requires AllHex(a) && AllHex(b)
    ensures AllHex(a + b)
    ensures HexValue(a + b) == HexValue(a) * Pow16(|b|) + HexValue(b)
    decreases |b|
  {
    if |b| > 0 {
      var ab := a + b;
      assert ab[..|ab| - 1] == a + b[..|b| - 1];
      HexValueAppend(a, b[..|b| - 1]);
      assert HexValue(ab) == HexValue(a + b[..|b| - 1]) * 16 + HexDigitValue(b[|b| - 1]).value;
      assert HexValue(b) == HexValue(b[..|b| - 1]) * 16 + HexDigitValue(b[|b| - 1]).value;
      Regroup(HexValue(a), Pow16(|b| - 1), HexValue(b[..|b| - 1]), HexDigitValue(b[|b| - 1]).value);
    } else {
      assert a + b == a;
    }
  }

  lemma Regroup(x: nat, p: nat, y: nat, d: nat)
    ensures (x * p + y) * 16 + d == x * (p * 16) + (y * 16 + d)
  {
  }

  function Pow16(n: nat): nat {
    if n == 0 then 1 else Pow16(n - 1) * 16
  }

  lemma TwoDigitsBelow256(s: string)
    requires |s| == 2 && AllHex(s)
    ensures HexValue(s) < 256
  {
    var first := s[..1];
    assert s[..|s| - 1] == first && first[..0] == [];
    assert HexValue(first) == HexDigitValue(s[0]).value;
    assert HexValue(s) == HexValue(first) * 16 + HexDigitValue(s[1]).value;
  }

  /** The scan stops at the first character that is not a hex digit. */
  lemma {:induction false} HexPrefixOf(digits: string, rest: string)
    requires AllHex(digits)
    requires |rest| == 0 || HexDigitValue(rest[0]).None?
    ensures HexPrefixLength(digits + rest) == |digits|
    ensures (digits + rest)[..|digits|] == digits
    decreases |digits|
  {
    var t := digits + rest;
    if |digits| > 0 {
      assert t[1..] == digits[1..] + rest;
      HexPrefixOf(digits[1..], rest);
    } else {
      assert t == rest;
    }
  }

  /** A '#', then hex digits, then text that does not start with a hex digit,
      scans as the value of the digits. */
  lemma ScanHashDigits(digits: string, rest: string)
    requires AllHex(digits)
    requires |rest| == 0 || HexDigitValue(rest[0]).None?
    ensures ScanHex("#" + digits + rest) == HexValue(digits)
  {
    var text := "#" + digits + rest;
    assert text[1..] == digits + rest;
    HexPrefixOf(digits, rest);
  }

  /** Without the '#', hex digits followed by text that does not start with
      a hex digit scan the same way. */
  lemma ScanBareDigits(digits: string, rest: string)
    requires |digits| > 0 && AllHex(digits)
    requires |rest| == 0 || HexDigitValue(rest[0]).None?
    ensures ScanHex(digits + rest) == HexValue(digits)
  {
    assert (digits + rest)[0] == digits[0];
    assert HexDigitValue(digits[0]).Some?;
    HexPrefixOf(digits, rest);
  }

  lemma SixDigitValue(digits: string)
    requires |digits| == 6 && AllHex(digits)
    ensures HexValue(digits) == HexValue(digits[..2]) * 65536 + HexValue(digits[2..4]) * 256 + HexValue(digits[4..])
  {
    var r, g, b := digits[..2], digits[2..4], digits[4..];
    assert digits == (r + g) + b;
    assert Pow16(2) == 256 by {
      assert Pow16(1) == 16;
    }
    HexValueAppend(r, g);
    assert HexValue(r + g) == HexValue(r) * 256 + HexValue(g);
    HexValueAppend(r + g, b);
    assert HexValue(digits) == HexValue(r + g) * 256 + HexValue(b);
  }

  /** For "#RRGGBB" the channels are the three digit pairs. */
  lemma SixDigitChannels(digits: string)
    requires |digits| == 6 && AllHex(digits)
    ensures Channels("#" + digits) == (HexValue(digits[..2]), HexValue(digits[2..4]), HexValue(digits[4..]))
  {
    var r, g, b := digits[..2], digits[2..4], digits[4..];
    TwoDigitsBelow256(r);
    TwoDigitsBelow256(g);
    TwoDigitsBelow256(b);
    assert "#" + digits + "" == "#" + digits;
    ScanHashDigits(digits, "");
    SixDigitValue(digits);
    ChannelsOfPacked(HexValue(r), HexValue(g), HexValue(b));
  }

  lemma ChannelsOfPacked(r: nat, g: nat, b: nat)
    requires r < 256 && g < 256 && b < 256
    ensures var v := r * 65536 + g * 256 + b;
            (v / 65536) % 256 == r && (v / 256) % 256 == g && v % 256 == b
  {
    var v := r * 65536 + g * 256 + b;
    assert v / 65536 == r;
    assert v / 256 == r * 256 + g;
  }

  /** The app's brand blue. */
  lemma BrandBlue()
    ensures Channels("#1D3D98") == (0x1D, 0x3D, 0x98)
  {
    BrandDigits();
    SixDigitChannels("1D3D98");
    assert HexValue("1D") == 0x1D by {
      TwoDigitValue('1', 'D');
    }
    assert HexValue("3D") == 0x3D by {
      TwoDigitValue('3', 'D');
    }
    assert HexValue("98") == 0x98 by {
      TwoDigitValue('9', '8');
    }
  }

  lemma BrandDigits()
    ensures "#1D3D98" == "#" + "1D3D98"
    ensures |"1D3D98"| == 6 && AllHex("1D3D98")
    ensures "1D3D98"[..2] == "1D" && "1D3D98"[2..4] == "3D" && "1D3D98"[4..] == "98"
  {
    var digits := "1D3D98";
    assert forall i | 0 <= i < 6 :: digits[i] in "0123456789ABCDEF";
  }

  lemma TwoDigitValue(a: char, b: char)
    requires HexDigitValue(a).Some? && HexDigitValue(b).Some?
    ensures HexValue([a, b]) == HexDigitValue(a).value * 16 + HexDigitValue(b).value
  {
    assert [a, b][..1] == [a] && [a][..0] == [];
    assert HexValue([a]) == HexDigitValue(a).value;
  }
}

=== FILE: base.dfy ===
/** Shared vocabulary: optional values, results, Swift's Int32 range, and
    order-preserving selection over sequences. */
module Base {

  /** Swift's `Optional`: `nil` or a wrapped value. */
  datatype Option<+T> = None | Some(value: T) {
    /** The `??` operator. */
    function GetOr(default: T): T {
      match this
      case Some(v) => v
      case None => default
    }
  }

  /** The outcome of an action that can be refused by validation. */
  datatype Result<+R, +E> = Ok(value: R) | Err(error: E)

  /** Values representable by Swift's `Int32`. */
  type Int32 = x: int | -0x8000_0000 <= x <= 0x7FFF_FFFF

  /** `r` can be obtained from `s` by deleting elements: a subsequence in
      the original order (greedy matching is complete for this). */
  predicate Subsequence<T(==)>(r: seq<T>, s: seq<T>)
    decreases |s|
  {
    if |r| == 0 then true
    else if |s| == 0 then false
    else if r[0] == s[0] then Subsequence(r[1..], s[1..])
    else Subsequence(r, s[1..])
  }

  /** Swift's `Array.filter`: the elements of `s` that satisfy `keep`, in order. */
  function Select<T(==,!new)>(s: seq<T>, keep: T -> bool): (r: seq<T>)
    ensures |r| <= |s|
    ensures forall x :: x in r <==> x in s && keep(x)
    ensures forall i | 0 <= i < |r| :: keep(r[i])
    ensures forall x :: multiset(r)[x] == if keep(x) then multiset(s)[x] else 0
    ensures (forall i | 0 <= i < |s| :: keep(s[i])) ==> r == s
  {
    if |s| == 0 then []
    else
      var rest := Select(s[1..], keep);
      assert s == [s[0]] + s[1..];
      assert multiset(s) == multiset{s[0]} + multiset(s[1..]);
      if keep(s[0]) then [s[0]] + rest else rest
  }

  /** Skipping one more element of `s` never breaks a subsequence. */
  lemma {:induction false} SubsequenceOfTail<T>(r: seq<T>, s: seq<T>)
    requires |s| > 0
    requires Subsequence(r, s[1..])
    ensures Subsequence(r, s)
    decreases |s|, 0
  {
    if |r| > 0 && r[0] == s[0] {
      SubsequenceDropHead(r, s[1..]);
    }
  }

  /** Dropping the first element of a subsequence keeps it a subsequence. */
  lemma {:induction false} SubsequenceDropHead<T>(r: seq<T>, s: seq<T>)
    requires |r| > 0
    requires Subsequence(r, s)
    ensures Subsequence(r[1..], s)
    decreases |s|, 1
  {
    if r[0] == s[0] {
      if |r[1..]| > 0 {
        SubsequenceOfTail(r[1..], s);
      }
    } else {
      SubsequenceDropHead(r, s[1..]);
      if |r[1..]| > 0 {
        SubsequenceOfTail(r[1..], s);
      }
    }
  }

  /** The selection keeps the original order: it is a subsequence of its input. */
  lemma {:induction false} SelectIsSubsequence<T(!new)>(s: seq<T>, keep: T -> bool)
    ensures Subsequence(Select(s, keep), s)
  {
    if |s| > 0 {
      SelectIsSubsequence(s[1..], keep);
      var rest := Select(s[1..], keep);
      if keep(s[0]) {
        assert Select(s, keep) == [s[0]] + rest;
        assert ([s[0]] + rest)[1..] == rest;
      } else {
        SubsequenceOfTail(rest, s);
      }
    }
  }

  /** Selecting from `s` plus `y`, where `y` is only appended when it is
      kept, keeps each element as often as `s + [y]` holds it. */
  lemma SelectOptionalAppend<T(!new)>(s: seq<T>, y: T, keep: T -> bool)
    ensures var entered := if keep(y) then s + [y] else s;
            forall x :: multiset(Select(entered, keep))[x] == if keep(x) then multiset(s + [y])[x] else 0
    ensures var entered := if keep(y) then s + [y] else s;
            forall x :: x in Select(entered, keep) <==> x in s + [y] && keep(x)
  {
    var entered := if keep(y) then s + [y] else s;
    assert multiset(s + [y]) == multiset(s) + multiset{y};
    forall x | keep(x)
      ensures multiset(entered)[x] == multiset(s + [y])[x]
    {
      if !keep(y) {
        assert x != y;
      }
    }
  }
}

=== FILE: cluster.dfy ===
/** The collection screen: category tabs and what each tab lists, the "New
    Category" sheet, the category list it appends to, and the item detail
    sheet's edit mode (ClusterView.swift). */
module Cluster {
  import opened Base
  import opened Text
  import opened Records
  import opened Filter
  import opened Facets
  import opened AddItem

  // ---------------------------------------------------------------------------
  // Tabs
  // ---------------------------------------------------------------------------

  datatype Tab = Coins | Banknotes | CustomTab(category: CustomCategory)

  /** The tab's `==`: custom tabs are compared by category id only. */
  predicate SameTab(a: Tab, b: Tab) {
    match (a, b)
    case (Coins, Coins) => true
    case (Banknotes, Banknotes) => true
    case (CustomTab(x), CustomTab(y)) => x.id == y.id
    case _ => false
  }

  /** Two custom tabs are the same tab exactly when their ids agree, whatever
      their names and fields; tabs of different kinds never are. */
  lemma SameTabCases(a: Tab, b: Tab)
    ensures a.CustomTab? && b.CustomTab? ==> (SameTab(a, b) <==> a.category.id == b.category.id)
    ensures a.Coins? && b.Coins? ==> SameTab(a, b)
    ensures a.Banknotes? && b.Banknotes? ==> SameTab(a, b)
    ensures (a.Coins? != b.Coins?) || (a.Banknotes? != b.Banknotes?) ==> !SameTab(a, b)
  {
  }

  /** The tab comparison is an equivalence, coarser than structural equality. */
  lemma SameTabEquivalence(a: Tab, b: Tab, c: Tab)
    ensures SameTab(a, a)
    ensures SameTab(a, b) ==> SameTab(b, a)
    ensures SameTab(a, b) && SameTab(b, c) ==> SameTab(a, c)
  {
  }

  /** Renaming a custom category does not change which tab it is. */
  lemma SameTabIgnoresNameAndFields(c: CustomCategory, name: string, fields: seq<string>)
    ensures SameTab(CustomTab(c), CustomTab(CustomCategory(c.id, name, fields)))
  {
  }

  /** The category string whose items a tab lists. */
  function TabCategory(tab: Tab): (name: string)
    ensures tab.Coins? ==> name == Coin.RawValue()
    ensures tab.Banknotes? ==> name == Banknote.RawValue()
    ensures tab.CustomTab? ==> name == tab.category.name
  {
    match tab
    case Coins => Coin.RawValue()
    case Banknotes => Banknote.RawValue()
    case CustomTab(c) => c.name
  }

  /** The test of the collection grid's `filteredItems`. Without filter
      parameters the tab decides; with them the category must be ticked
      (an empty set ticks nothing) and every field constraint must pass. */
  predicate ShownOnTab(item: Item, tab: Tab, filter: Option<FilterParameters>, codec: FieldCodec): (r: bool)
    ensures filter.None? ==> (r <==> item.category == Some(TabCategory(tab)))
    ensures filter.Some? && filter.value.selectedCategories == {} ==> !r
    ensures filter.Some? && filter.value.selectedCategories != {} ==> (r <==> Matches(item, filter.value, codec))
  {
    match filter
    case None => item.category == Some(TabCategory(tab))
    case Some(p) => CategoryKey(item) in p.selectedCategories && PassesParams(item, p.selectedParams, codec)
  }

  /** The collection grid's `filteredItems`. */
  function TabItems(items: seq<Item>, tab: Tab, filter: Option<FilterParameters>, codec: FieldCodec): (r: seq<Item>)
    ensures forall x :: x in r <==> x in items && ShownOnTab(x, tab, filter, codec)
    ensures forall x :: multiset(r)[x] == if ShownOnTab(x, tab, filter, codec) then multiset(items)[x] else 0
  {
    Select(items, x => ShownOnTab(x, tab, filter, codec))
  }

  /** Without filter parameters a tab lists exactly the items filed under its
      category, in the order of the given list. */
  lemma TabListsItsCategory(items: seq<Item>, tab: Tab, codec: FieldCodec)
    ensures forall x :: x in TabItems(items, tab, None, codec) <==>
              x in items && x.category == Some(match tab
                                               case Coins => "Coin"
                                               case Banknotes => "Banknote"
                                               case CustomTab(c) => c.name)
    ensures Subsequence(TabItems(items, tab, None, codec), items)
  {
    SelectIsSubsequence(items, x => ShownOnTab(x, tab, None, codec));
  }

  /** With filter parameters and no ticked category the grid is empty. */
  lemma NoTickedCategoryShowsNothing(items: seq<Item>, tab: Tab, p: FilterParameters, codec: FieldCodec)
    requires p.selectedCategories == {}
    ensures TabItems(items, tab, Some(p), codec) == []
  {
  }

  /** The grid's copy of the filter agrees with the filter screen's whenever
      some category is ticked; the tab itself no longer matters. */
  lemma TabFilterAgreesWithFilterScreen(items: seq<Item>, tab: Tab, p: FilterParameters, codec: FieldCodec)
    requires p.selectedCategories != {}
    ensures TabItems(items, tab, Some(p), codec) == FilteredItems(items, p, codec)
  {
    assert |p.selectedCategories| > 0;
    if |items| > 0 {
      TabFilterAgreesWithFilterScreen(items[1..], tab, p, codec);
    }
  }

  /** The sheet the "Add new item" button opens on a tab. */
  function AddSheetFor(tab: Tab): (d: Draft)
    ensures tab.CustomTab? ==> d.target == Custom(tab.category)
    ensures tab.Coins? ==> d.target == BuiltIn(Coin)
    ensures tab.Banknotes? ==> d.target == BuiltIn(Banknote)
  {
    match tab
    case CustomTab(c) => NewCustomDraft(c)
    case Coins => NewBuiltinDraft(Coin)
    case Banknotes => NewBuiltinDraft(Banknote)
  }

  /** Whatever the user types on the sheet, an item it saves is listed on the
      tab the sheet was opened from. */
  lemma SavedItemShowsOnTab(tab: Tab, es: seq<Edit>, codec: FieldCodec)
    requires SaveDoesNotTrap(ApplyEdits(AddSheetFor(tab), es))
    requires Save(ApplyEdits(AddSheetFor(tab), es), codec).Ok?
    ensures ShownOnTab(Save(ApplyEdits(AddSheetFor(tab), es), codec).value, tab, None, codec)
  {
    EditsKeepTarget(AddSheetFor(tab), es);
  }

  // ---------------------------------------------------------------------------
  // The "New Category" sheet
  // ---------------------------------------------------------------------------

  /** The sheet's state: the category name, the added field rows, and the
      text in the "New element..." row. */
  datatype CategoryForm = CategoryForm(name: string, fields: seq<string>, newField: string)

  const FixedFields: seq<string> := ["Name", "Year of foundation"]

  function NewCategoryForm(): CategoryForm {
    CategoryForm("", [], "")
  }

  /** The "+" button: a non-blank pending field is appended and the row cleared. */
  function AddFieldTapped(f: CategoryForm): (r: CategoryForm)
    ensures IsBlank(f.newField) ==> r == f
    ensures !IsBlank(f.newField) ==> r.fields == f.fields + [f.newField] && r.newField == ""
    ensures r.name == f.name
  {
    if !IsBlank(f.newField) then f.(fields := f.fields + [f.newField], newField := "") else f
  }

  /** The user's actions on the sheet. Editing an added row can blank it. */
  datatype CategoryEdit =
    | TypeCategoryName(text: string)
    | TypeNewField(text: string)
    | TapAddField
    | EditFieldRow(index: nat, text: string)
    | DeleteFieldRow(index: nat)

  function ApplyCategoryEdit(f: CategoryForm, e: CategoryEdit): (r: CategoryForm)
    ensures !e.TypeCategoryName? ==> r.name == f.name
    ensures e.TypeCategoryName? || e.TypeNewField? ==> r.fields == f.fields
    ensures e.DeleteFieldRow? && e.index < |f.fields| ==>
              multiset(r.fields) == multiset(f.fields) - multiset{f.fields[e.index]}
    ensures !e.EditFieldRow? && AllNonBlank(f.fields) ==> AllNonBlank(r.fields)
  {
    match e
    case TypeCategoryName(t) => f.(name := t)
    case TypeNewField(t) => f.(newField := t)
    case TapAddField =>
      AppendRowNonBlank(f.fields, f.newField);
      AddFieldTapped(f)
    case EditFieldRow(i, t) => if i < |f.fields| then f.(fields := f.fields[i := t]) else f
    case DeleteFieldRow(i) =>
      if i < |f.fields| then
        DeleteRowCount(f.fields, i);
        DeleteRowNonBlank(f.fields, i);
        f.(fields := f.fields[..i] + f.fields[i + 1..])
      else f
  }

  function ApplyCategoryEdits(f: CategoryForm, es: seq<CategoryEdit>): CategoryForm
    decreases |es|
  {
    if |es| == 0 then f else ApplyCategoryEdits(ApplyCategoryEdit(f, es[0]), es[1..])
  }

  predicate AllNonBlank(s: seq<string>) {
    forall i | 0 <= i < |s| :: !IsBlank(s[i])
  }

  /** Deleting row `i` removes one copy of that row. */
  lemma DeleteRowCount(s: seq<string>, i: nat)
    requires i < |s|
    ensures multiset(s[..i] + s[i + 1..]) == multiset(s) - multiset{s[i]}
  {
    assert s == s[..i] + [s[i]] + s[i + 1..];
  }

  /** Deleting a row keeps the others, so no blank row appears. */
  lemma DeleteRowNonBlank(s: seq<string>, i: nat)
    requires i < |s|
    ensures AllNonBlank(s) ==> AllNonBlank(s[..i] + s[i + 1..])
  {
    var t := s[..i] + s[i + 1..];
    forall k | 0 <= k < |t| && AllNonBlank(s)
      ensures !IsBlank(t[k])
    {
      if k < i {
        assert t[k] == s[k];
      } else {
        assert t[k] == s[k + 1];
      }
    }
  }

  /** Appending a non-blank row keeps every row non-blank. */
  lemma AppendRowNonBlank(s: seq<string>, x: string)
    ensures AllNonBlank(s) && !IsBlank(x) ==> AllNonBlank(s + [x])
  {
    var t := s + [x];
    forall k | 0 <= k < |t| && AllNonBlank(s) && !IsBlank(x)
      ensures !IsBlank(t[k])
    {
      if k < |s| {
        assert t[k] == s[k];
      }
    }
  }

  /** As long as added rows are not edited, every added row is non-blank. */
  lemma {:induction false} RowsStayNonBlank(f: CategoryForm, es: seq<CategoryEdit>)
    requires AllNonBlank(f.fields)
    requires forall i | 0 <= i < |es| :: !es[i].EditFieldRow?
    ensures AllNonBlank(ApplyCategoryEdits(f, es).fields)
    decreases |es|
  {
    if |es| > 0 {
      RowsStayNonBlank(ApplyCategoryEdit(f, es[0]), es[1..]);
    }
  }

  datatype CategoryError = CategoryNameRequired

  /** The filter applied to the entered field names. */
  predicate KeepField(x: string) {
    !IsBlank(x)
  }

  /** The entered rows plus the pending row when it is not blank. */
  function EnteredFields(f: CategoryForm): seq<string> {
    if !IsBlank(f.newField) then f.fields + [f.newField] else f.fields
  }

  /** The "Create Category" button: the fixed fields, then the added rows and
      the pending row, with blank entries dropped. A blank name is refused. */
  function CreateCategory(f: CategoryForm, id: CategoryId): (r: Result<CustomCategory, CategoryError>)
    ensures r.Err? <==> IsBlank(f.name)
    ensures r.Ok? ==> r.value.id == id && r.value.name == f.name
    ensures r.Ok? ==> |r.value.fields| >= 2 && r.value.fields[..2] == FixedFields
    ensures r.Ok? ==> forall i | 2 <= i < |r.value.fields| :: !IsBlank(r.value.fields[i])
    ensures r.Ok? ==> forall x :: x in r.value.fields[2..] <==> x in f.fields + [f.newField] && !IsBlank(x)
    ensures r.Ok? ==> forall x :: multiset(r.value.fields[2..])[x] ==
                                    if IsBlank(x) then 0 else multiset(f.fields + [f.newField])[x]
  {
    var extra := Select(EnteredFields(f), KeepField);
    var category := CustomCategory(id, f.name, FixedFields + extra);
    assert category.fields[2..] == extra;
    KeptFields(f);
    if IsBlank(f.name) then Err(CategoryNameRequired) else Ok(category)
  }

  /** The kept rows are the non-blank entered rows and the non-blank pending
      row, each as often as entered. */
  lemma KeptFields(f: CategoryForm)
    ensures forall x :: x in Select(EnteredFields(f), KeepField) <==> x in f.fields + [f.newField] && !IsBlank(x)
    ensures forall x :: multiset(Select(EnteredFields(f), KeepField))[x] ==
                          if IsBlank(x) then 0 else multiset(f.fields + [f.newField])[x]
  {
    assert EnteredFields(f) == if KeepField(f.newField) then f.fields + [f.newField] else f.fields;
    SelectOptionalAppend(f.fields, f.newField, KeepField);
  }

  /** The added fields keep their order (duplicates included) behind the
      fixed ones. */
  lemma CreatedFieldsInOrder(f: CategoryForm, id: CategoryId)
    requires !IsBlank(f.name)
    ensures Subsequence(CreateCategory(f, id).value.fields[2..], f.fields + [f.newField])
  {
    var all := EnteredFields(f);
    var extra := Select(all, KeepField);
    SelectIsSubsequence(all, KeepField);
    assert CreateCategory(f, id).value.fields[2..] == extra;
    if IsBlank(f.newField) {
      SubsequencePrefix(extra, f.fields, [f.newField]);
    }
  }

  lemma {:induction false} SubsequencePrefix(r: seq<string>, s: seq<string>, t: seq<string>)
    requires Subsequence(r, s)
    ensures Subsequence(r, s + t)
    decreases |s|
  {
    if |r| > 0 && |s| > 0 {
      assert (s + t)[1..] == s[1..] + t;
      if r[0] == s[0] {
        SubsequencePrefix(r[1..], s[1..], t);
      } else {
        SubsequencePrefix(r, s[1..], t);
      }
    }
  }

  /** When no added row is blank, nothing is dropped: the category's fields
      are the fixed fields, the added rows, and the pending row if it is not
      blank. */
  lemma CreatedKeepsNonBlankRows(f: CategoryForm, id: CategoryId)
    requires !IsBlank(f.name) && AllNonBlank(f.fields)
    ensures CreateCategory(f, id).value.fields == FixedFields + EnteredFields(f)
  {
    var all := EnteredFields(f);
    AppendRowNonBlank(f.fields, f.newField);
    assert AllNonBlank(all);
    assert forall i | 0 <= i < |all| :: KeepField(all[i]);
    assert Select(all, KeepField) == all;
    assert CreateCategory(f, id) == Ok(CustomCategory(id, f.name, FixedFields + Select(all, KeepField)));
  }

  /** Built only with the sheet's buttons (rows never edited), a category's
      fields are exactly the fixed fields, the added rows in order with any
      duplicates, and the pending row if it is not blank. */
  lemma CreatedFromButtons(es: seq<CategoryEdit>, id: CategoryId)
    requires forall i | 0 <= i < |es| :: !es[i].EditFieldRow?
    requires !IsBlank(ApplyCategoryEdits(NewCategoryForm(), es).name)
    ensures var f := ApplyCategoryEdits(NewCategoryForm(), es);
            CreateCategory(f, id).value.fields == FixedFields + EnteredFields(f)
  {
    RowsStayNonBlank(NewCategoryForm(), es);
    CreatedKeepsNonBlankRows(ApplyCategoryEdits(NewCategoryForm(), es), id);
  }

  /** The sheet's `onSave`: a created category is appended to the list; a
      refused one leaves it as it was. */
  function SaveCategory(categories: seq<CustomCategory>, f: CategoryForm, id: CategoryId)
    : (r: seq<CustomCategory>)
    ensures IsBlank(f.name) ==> r == categories
    ensures !IsBlank(f.name) ==> |r| == |categories| + 1 && r[..|categories|] == categories
    ensures !IsBlank(f.name) ==> r[|categories|] == CreateCategory(f, id).value
  {
    match CreateCategory(f, id)
    case Err(_) => categories
    case Ok(c) => categories + [c]
  }

  /** A saved category becomes the last entry of the filter screen's
      category list. */
  lemma SavedCategoryListedLast(categories: seq<CustomCategory>, f: CategoryForm, id: CategoryId)
    requires !IsBlank(f.name)
    ensures AllCategories(SaveCategory(categories, f, id)) == AllCategories(categories) + [f.name]
  {
    var c := CreateCategory(f, id).value;
    assert SaveCategory(categories, f, id) == categories + [c];
    AllCategoriesAppend(categories, c);
  }

  lemma AllCategoriesAppend(categories: seq<CustomCategory>, c: CustomCategory)
    ensures AllCategories(categories + [c]) == AllCategories(categories) + [c.name]
  {
    var saved := categories + [c];
    var a := AllCategories(saved);
    var b := AllCategories(categories) + [c.name];
    assert |a| == |b|;
    forall i | 0 <= i < |a|
      ensures a[i] == b[i]
    {
      if 2 <= i < |a| - 1 {
        assert saved[i - 2] == categories[i - 2];
      }
    }
  }

  // ---------------------------------------------------------------------------
  // Editing an item in the detail sheet
  // ---------------------------------------------------------------------------

  /** The edit-mode text fields and the custom field map. */
  datatype EditForm = EditForm(
    name: string,
    year: string,
    country: string,
    collection: string,
    fields: map<string, string>)

  /** Tapping the pencil. The year shows as "" when unset, and the collection
      text shows only when the item has no custom fields. */
  function BeginEdit(item: Item, codec: FieldCodec): (f: EditForm)
    ensures f.fields == DecodeCustomFields(codec, item.collection)
    ensures f.name == item.name.GetOr("") && f.country == item.country.GetOr("")
  {
    var dict := DecodeCustomFields(codec, item.collection);
    EditForm(item.name.GetOr(""),
             if item.year != 0 then DecimalString(item.year) else "",
             item.country.GetOr(""),
             if |dict| == 0 then item.collection.GetOr("") else "",
             dict)
  }

  /** Typing into a custom field's text box. The screen shows one text box
      per key of the decoded map, so `key` is already a key there and the
      set of keys stays the same; every other key and every other text of
      the form is left as it was. */
  function SetCustomField(f: EditForm, key: string, value: string): (r: EditForm)
    ensures r.fields.Keys == f.fields.Keys + {key} && r.fields[key] == value
    ensures key in f.fields ==> r.fields.Keys == f.fields.Keys
    ensures forall k | k in f.fields && k != key :: r.fields[k] == f.fields[k]
    ensures r.(fields := f.fields) == f
  {
    f.(fields := f.fields[key := value])
  }

  /** Tapping "Back" in edit mode: the year is parsed back (0 when it does not
      parse), and a non-empty custom map replaces the collection text. */
  function SaveEdit(item: Item, f: EditForm, codec: FieldCodec): (r: Item)
    ensures r.category == item.category && r.color == item.color
    ensures r.name == Some(f.name) && r.country == Some(f.country)
    ensures ParseInt32(f.year).Some? ==> r.year == ParseInt32(f.year).value
    ensures ParseInt32(f.year).None? ==> r.year == 0
    ensures |f.fields| > 0 ==> r.collection == Some(EncodeCustomFields(codec, f.fields))
    ensures |f.fields| == 0 ==> r.collection == Some(f.collection)
  {
    item.(name := Some(f.name),
          year := ParseInt32(f.year).GetOr(0),
          country := Some(f.country),
          collection := Some(if |f.fields| > 0 then EncodeCustomFields(codec, f.fields) else f.collection))
  }

  /** The year box is empty exactly when the year is unset. */
  lemma EditYearBlankIffUnset(item: Item, codec: FieldCodec)
    ensures BeginEdit(item, codec).year == "" <==> item.year == 0
  {
    DecimalNonEmpty(item.year);
  }

  /** Entering and leaving edit mode without typing keeps the name (if any),
      the year, the category and the color; a missing country comes back as "". */
  lemma UnchangedEditKeepsScalars(item: Item, codec: FieldCodec)
    ensures var r := SaveEdit(item, BeginEdit(item, codec), codec);
            && r.year == item.year
            && r.category == item.category && r.color == item.color
            && r.country == Some(item.country.GetOr(""))
            && (item.name.Some? ==> r.name == item.name)
  {
    if item.year != 0 {
      DecimalRoundTrip(item.year);
    }
  }

  /** Entering and leaving edit mode without typing keeps the custom field
      map (under the codec assumptions), or the literal collection text when
      there is no map. */
  lemma UnchangedEditKeepsCollection(item: Item, codec: FieldCodec)
    requires RoundTrips(codec) && EncodesAll(codec)
    ensures var r := SaveEdit(item, BeginEdit(item, codec), codec);
            var dict := DecodeCustomFields(codec, item.collection);
            && (|dict| > 0 ==> DecodeCustomFields(codec, r.collection) == dict)
            && (|dict| == 0 ==> r.collection == Some(item.collection.GetOr("")))
  {
    var dict := DecodeCustomFields(codec, item.collection);
    if |dict| > 0 {
      EncodeThenDecode(codec, dict);
    }
  }

  /** Typing a value into one of the decoded custom fields and tapping
      "Back" stores a map with the same keys, that field holding the typed
      value and every other field its old value (under the codec assumptions). */
  lemma EditCustomFieldThenSave(item: Item, key: string, value: string, codec: FieldCodec)
    requires RoundTrips(codec) && EncodesAll(codec)
    requires key in DecodeCustomFields(codec, item.collection)
    ensures var dict := DecodeCustomFields(codec, item.collection);
            var r := SaveEdit(item, SetCustomField(BeginEdit(item, codec), key, value), codec);
            var saved := DecodeCustomFields(codec, r.collection);
            && saved.Keys == dict.Keys
            && saved[key] == value
            && (forall k | k in dict && k != key :: saved[k] == dict[k])
  {
    var f := SetCustomField(BeginEdit(item, codec), key, value);
    assert |f.fields| > 0 by {
      assert key in f.fields;
    }
    EncodeThenDecode(codec, f.fields);
  }
}

=== FILE: facets.dfy ===
/** The facet builder of the filter screen: the list of categories and, per
    category, the sorted distinct values each field takes in the stored
    items (FilterView.swift, `buildCategoriesAndParams`). */
module Facets {
  import opened Base
  import opened Text
  import opened Records

  // ---------------------------------------------------------------------------
  // Sorted, de-duplicated value lists (`Array(Set(values)).sorted()`)
  // ---------------------------------------------------------------------------

  predicate StrictlySorted(s: seq<string>) {
    forall i, j | 0 <= i < j < |s| :: Less(s[i], s[j])
  }

  /** Inserts `x` into a strictly sorted list unless it is already there. */
  function InsertSorted(x: string, s: seq<string>): (r: seq<string>)
    requires StrictlySorted(s)
    ensures StrictlySorted(r)
    ensures forall y :: y in r <==> y in s || y == x
    decreases |s|
  {
    if |s| == 0 then [x]
    else if x == s[0] then s
    else if Less(x, s[0]) then
      assert forall j | 0 <= j < |s| :: Less(x, s[j]) by {
        forall j | 0 <= j < |s|
          ensures Less(x, s[j])
        {
          if j > 0 {
            LessTransitive(x, s[0], s[j]);
          }
        }
      }
      [x] + s
    else
      LessTotal(x, s[0]);
      var rest := InsertSorted(x, s[1..]);
      assert forall y | y in rest :: Less(s[0], y) by {
        forall y | y in rest
          ensures Less(s[0], y)
        {
          if y != x {
            var k :| 1 <= k < |s| && s[k] == y;
          }
        }
      }
      [s[0]] + rest
  }

  /** The distinct elements of `s` in ascending order. */
  function SortedDistinct(s: seq<string>): (r: seq<string>)
    ensures StrictlySorted(r)
    ensures forall y :: y in r <==> y in s
  {
    if |s| == 0 then []
    else InsertSorted(s[|s| - 1], SortedDistinct(s[..|s| - 1]))
  }

  /** A strictly sorted list has no repeated element. */
  lemma StrictlySortedDistinct(s: seq<string>)
    requires StrictlySorted(s)
    ensures Distinct(s)
  {
    forall i, j | 0 <= i < j < |s|
      ensures s[i] != s[j]
    {
      if s[i] == s[j] {
        LessIrreflexive(s[i]);
      }
    }
  }

  /** Two strictly sorted lists with the same elements are equal. */
  lemma {:induction false} SortedUnique(a: seq<string>, b: seq<string>)
    requires StrictlySorted(a) && StrictlySorted(b)
    requires forall y :: y in a <==> y in b
    ensures a == b
    decreases |a|
  {
    assert |a| > 0 ==> a[0] in a && |b| > 0;
    assert |b| > 0 ==> b[0] in b && |a| > 0;
    if |a| > 0 && |b| > 0 {
      // Both heads are the least element of the same set.
      assert a[0] in a && b[0] in b;
      if a[0] != b[0] {
        var i :| 0 <= i < |b| && b[i] == a[0];
        var j :| 0 <= j < |a| && a[j] == b[0];
        assert i > 0 && j > 0;
        LessAsymmetric(b[0], a[0]);
      }
      forall y
        ensures y in a[1..] <==> y in b[1..]
      {
        if y in a[1..] {
          var k :| 0 <= k < |a[1..]| && a[1..][k] == y;
          assert Less(a[0], a[k + 1]);
          LessIrreflexive(y);
          assert y in b;
          var m :| 0 <= m < |b| && b[m] == y;
          assert m > 0 && b[1..][m - 1] == y;
        }
        if y in b[1..] {
          var k :| 0 <= k < |b[1..]| && b[1..][k] == y;
          assert Less(b[0], b[k + 1]);
          LessIrreflexive(y);
          assert y in a;
          var m :| 0 <= m < |a| && a[m] == y;
          assert m > 0 && a[1..][m - 1] == y;
        }
      }
      SortedUnique(a[1..], b[1..]);
      assert a == [a[0]] + a[1..] && b == [b[0]] + b[1..];
    }
  }

  /** The facet list depends only on which values occur, not on their order
      or repetition in the stored items. */
  lemma SortedDistinctDependsOnlyOnElements(s: seq<string>, t: seq<string>)
    requires forall y :: y in s <==> y in t
    ensures SortedDistinct(s) == SortedDistinct(t)
  {
    SortedUnique(SortedDistinct(s), SortedDistinct(t));
  }

  // ---------------------------------------------------------------------------
  // Facets
  // ---------------------------------------------------------------------------

  /** `compactMap`: the present results of `f`, in order. */
  function CompactMap<T(!new)>(s: seq<T>, f: T -> Option<string>): (r: seq<string>)
    ensures forall v :: v in r <==> exists x | x in s :: f(x) == Some(v)
  {
    if |s| == 0 then []
    else
      var rest := CompactMap(s[1..], f);
      assert forall x | x in s :: x == s[0] || x in s[1..];
      match f(s[0])
      case Some(v) => [v] + rest
      case None => rest
  }

  /** The categories listed on the filter screen: the visible built-ins and
      then the custom categories in list order. */
  function AllCategories(customs: seq<CustomCategory>): (r: seq<string>)
    ensures |r| == 2 + |customs|
    ensures r[0] == "Coin" && r[1] == "Banknote"
    ensures forall i | 0 <= i < |customs| :: r[2 + i] == customs[i].name
  {
    [Coin.RawValue(), Banknote.RawValue()] + seq(|customs|, i requires 0 <= i < |customs| => customs[i].name)
  }

  /** The stored items filed under `name`. */
  function ItemsIn(items: seq<Item>, name: string): seq<Item> {
    Select(items, (x: Item) => x.category == Some(name))
  }

  function CountryOf(x: Item): Option<string> {
    x.country
  }

  /** The year as the screen renders it, dropping the unset year "0". */
  function YearTextOf(x: Item): Option<string> {
    var text := DecimalString(x.year);
    if text != "0" then Some(text) else None
  }

  function CollectionOf(x: Item): Option<string> {
    x.collection
  }

  /** The value of `field` in the item's decoded field map, if any. */
  function FieldValueOf(codec: FieldCodec, field: string, x: Item): Option<string> {
    var dict := DecodeCustomFields(codec, x.collection);
    if field in dict then Some(dict[field]) else None
  }

  /** Facets of a built-in category: Country, Year and Collection. */
  function BuiltinFacets(items: seq<Item>, name: string): map<string, seq<string>> {
    var inCategory := ItemsIn(items, name);
    map["Country" := SortedDistinct(CompactMap(inCategory, CountryOf)),
        "Year" := SortedDistinct(CompactMap(inCategory, YearTextOf)),
        "Collection" := SortedDistinct(CompactMap(inCategory, CollectionOf))]
  }

  /** Facets of a custom category: one entry per field name. */
  function CustomFacets(items: seq<Item>, c: CustomCategory, codec: FieldCodec): map<string, seq<string>> {
    var inCategory := ItemsIn(items, c.name);
    map field | field in c.fields :: SortedDistinct(CompactMap(inCategory, (x: Item) => FieldValueOf(codec, field, x)))
  }

  /** The names of a list of custom categories. */
  function Names(customs: seq<CustomCategory>): set<string> {
    set c | c in customs :: c.name
  }

  /** Adds the custom categories' facets in list order; a later category with
      the same name replaces an earlier one. */
  function AddCustomFacets(acc: map<string, map<string, seq<string>>>, items: seq<Item>,
                           customs: seq<CustomCategory>, codec: FieldCodec)
    : map<string, map<string, seq<string>>>
    decreases |customs|
  {
    if |customs| == 0 then acc
    else
      var c := customs[0];
      AddCustomFacets(acc[c.name := CustomFacets(items, c, codec)], items, customs[1..], codec)
  }

  lemma NamesOfTail(customs: seq<CustomCategory>)
    requires |customs| > 0
    ensures Names(customs) == {customs[0].name} + Names(customs[1..])
  {
    assert customs == [customs[0]] + customs[1..];
  }

  /** Every custom category gets an entry and nothing else is added. */
  lemma {:induction false} AddCustomFacetsKeys(acc: map<string, map<string, seq<string>>>, items: seq<Item>,
                                               customs: seq<CustomCategory>, codec: FieldCodec)
    ensures AddCustomFacets(acc, items, customs, codec).Keys == acc.Keys + Names(customs)
    decreases |customs|
  {
    if |customs| > 0 {
      var c := customs[0];
      AddCustomFacetsKeys(acc[c.name := CustomFacets(items, c, codec)], items, customs[1..], codec);
      NamesOfTail(customs);
    }
  }

  /** Entries for names no custom category uses are left as they were. */
  lemma {:induction false} AddCustomFacetsKeepsOthers(acc: map<string, map<string, seq<string>>>, items: seq<Item>,
                                                      customs: seq<CustomCategory>, codec: FieldCodec, k: string)
    requires k in acc && k !in Names(customs)
    ensures k in AddCustomFacets(acc, items, customs, codec)
    ensures AddCustomFacets(acc, items, customs, codec)[k] == acc[k]
    decreases |customs|
  {
    if |customs| > 0 {
      var c := customs[0];
      NamesOfTail(customs);
      AddCustomFacetsKeepsOthers(acc[c.name := CustomFacets(items, c, codec)], items, customs[1..], codec, k);
    }
  }

  /** The last custom category with a given name decides that name's facets. */
  lemma {:induction false} AddCustomFacetsLastWins(acc: map<string, map<string, seq<string>>>, items: seq<Item>,
                                                   customs: seq<CustomCategory>, codec: FieldCodec, i: nat)
    requires i < |customs|
    requires customs[i].name !in Names(customs[i + 1..])
    ensures customs[i].name in AddCustomFacets(acc, items, customs, codec)
    ensures AddCustomFacets(acc, items, customs, codec)[customs[i].name] == CustomFacets(items, customs[i], codec)
    decreases |customs|
  {
    var c := customs[0];
    var acc' := acc[c.name := CustomFacets(items, c, codec)];
    if i == 0 {
      AddCustomFacetsKeepsOthers(acc', items, customs[1..], codec, c.name);
    } else {
      assert customs[1..][i - 1] == customs[i];
      assert customs[1..][i..] == customs[i + 1..];
      AddCustomFacetsLastWins(acc', items, customs[1..], codec, i - 1);
    }
  }

  /** `buildCategoriesAndParams`: facets for every listed category. */
  function BuildFacets(items: seq<Item>, customs: seq<CustomCategory>, codec: FieldCodec)
    : (r: map<string, map<string, seq<string>>>)
    ensures r.Keys == {"Coin", "Banknote"} + Names(customs)
  {
    var builtins := map["Coin" := BuiltinFacets(items, "Coin"),
                        "Banknote" := BuiltinFacets(items, "Banknote")];
    AddCustomFacetsKeys(builtins, items, customs, codec);
    AddCustomFacets(builtins, items, customs, codec)
  }

  /** The facet table has exactly one entry per listed category; the
      built-in entries survive unless a custom category reuses the name, and
      a custom category's entry comes from the last category of that name. */
  lemma BuildFacetsEntries(items: seq<Item>, customs: seq<CustomCategory>, codec: FieldCodec)
    ensures BuildFacets(items, customs, codec).Keys == set k | k in AllCategories(customs)
    ensures "Coin" !in Names(customs) ==>
              BuildFacets(items, customs, codec)["Coin"] == BuiltinFacets(items, "Coin")
    ensures "Banknote" !in Names(customs) ==>
              BuildFacets(items, customs, codec)["Banknote"] == BuiltinFacets(items, "Banknote")
    ensures forall i | 0 <= i < |customs| && customs[i].name !in Names(customs[i + 1..]) ::
              BuildFacets(items, customs, codec)[customs[i].name] == CustomFacets(items, customs[i], codec)
  {
    var builtins := map["Coin" := BuiltinFacets(items, "Coin"),
                        "Banknote" := BuiltinFacets(items, "Banknote")];
    AddCustomFacetsKeys(builtins, items, customs, codec);
    AllCategoryNames(customs);
    if "Coin" !in Names(customs) {
      AddCustomFacetsKeepsOthers(builtins, items, customs, codec, "Coin");
    }
    if "Banknote" !in Names(customs) {
      AddCustomFacetsKeepsOthers(builtins, items, customs, codec, "Banknote");
    }
    forall i | 0 <= i < |customs| && customs[i].name !in Names(customs[i + 1..])
      ensures BuildFacets(items, customs, codec)[customs[i].name] == CustomFacets(items, customs[i], codec)
    {
      AddCustomFacetsLastWins(builtins, items, customs, codec, i);
    }
  }

  /** The listed categories are the two built-in ones and the custom names. */
  lemma AllCategoryNames(customs: seq<CustomCategory>)
    ensures (set k | k in AllCategories(customs)) == {"Coin", "Banknote"} + Names(customs)
  {
    var cats := AllCategories(customs);
    forall k | k in cats
      ensures k in {"Coin", "Banknote"} + Names(customs)
    {
      var i :| 0 <= i < |cats| && cats[i] == k;
      if i >= 2 {
        assert customs[i - 2] in customs;
      }
    }
    forall k | k in Names(customs)
      ensures k in cats
    {
      var c :| c in customs && c.name == k;
      var i :| 0 <= i < |customs| && customs[i] == c;
      assert cats[2 + i] == k;
    }
  }

  /** A facet list holds exactly the values `f` yields on the items of the
      category, in ascending order without repeats. */
  lemma FacetMembers(items: seq<Item>, name: string, f: Item -> Option<string>, v: string)
    ensures StrictlySorted(SortedDistinct(CompactMap(ItemsIn(items, name), f)))
    ensures v in SortedDistinct(CompactMap(ItemsIn(items, name), f)) <==>
              exists x | x in items :: x.category == Some(name) && f(x) == Some(v)
  {
    var inCategory := ItemsIn(items, name);
    assert forall x :: x in inCategory <==> x in items && x.category == Some(name);
  }

  /** A built-in category's facets: values come only from that category's
      items, missing countries and collections and the unset year are
      dropped, and each list is sorted without repeats. */
  lemma BuiltinFacetValues(items: seq<Item>, name: string, v: string)
    ensures BuiltinFacets(items, name).Keys == {"Country", "Year", "Collection"}
    ensures v in BuiltinFacets(items, name)["Country"] <==>
              exists x | x in items :: x.category == Some(name) && x.country == Some(v)
    ensures v in BuiltinFacets(items, name)["Year"] <==>
              exists x | x in items :: x.category == Some(name) && x.year != 0 && DecimalString(x.year) == v
    ensures v in BuiltinFacets(items, name)["Collection"] <==>
              exists x | x in items :: x.category == Some(name) && x.collection == Some(v)
    ensures forall f | f in BuiltinFacets(items, name) :: StrictlySorted(BuiltinFacets(items, name)[f])
  {
    BuiltinFacetsShape(items, name);
    CountryFacetValues(items, name, v);
    YearFacetValues(items, name, v);
    CollectionFacetValues(items, name, v);
  }

  lemma BuiltinFacetsShape(items: seq<Item>, name: string)
    ensures var facets := BuiltinFacets(items, name);
            && facets.Keys == {"Country", "Year", "Collection"}
            && facets["Country"] == SortedDistinct(CompactMap(ItemsIn(items, name), CountryOf))
            && facets["Year"] == SortedDistinct(CompactMap(ItemsIn(items, name), YearTextOf))
            && facets["Collection"] == SortedDistinct(CompactMap(ItemsIn(items, name), CollectionOf))
  {
  }

  lemma CountryFacetValues(items: seq<Item>, name: string, v: string)
    ensures StrictlySorted(SortedDistinct(CompactMap(ItemsIn(items, name), CountryOf)))
    ensures v in SortedDistinct(CompactMap(ItemsIn(items, name), CountryOf)) <==>
              exists x | x in items :: x.category == Some(name) && x.country == Some(v)
  {
    FacetMembers(items, name, CountryOf, v);
  }

  lemma YearFacetValues(items: seq<Item>, name: string, v: string)
    ensures StrictlySorted(SortedDistinct(CompactMap(ItemsIn(items, name), YearTextOf)))
    ensures v in SortedDistinct(CompactMap(ItemsIn(items, name), YearTextOf)) <==>
              exists x | x in items :: x.category == Some(name) && x.year != 0 && DecimalString(x.year) == v
  {
    FacetMembers(items, name, YearTextOf, v);
    forall x | x in items
      ensures YearTextOf(x) == Some(v) <==> x.year != 0 && DecimalString(x.year) == v
    {
      DecimalZero(x.year);
    }
  }

  lemma CollectionFacetValues(items: seq<Item>, name: string, v: string)
    ensures StrictlySorted(SortedDistinct(CompactMap(ItemsIn(items, name), CollectionOf)))
    ensures v in SortedDistinct(CompactMap(ItemsIn(items, name), CollectionOf)) <==>
              exists x | x in items :: x.category == Some(name) && x.collection == Some(v)
  {
    FacetMembers(items, name, CollectionOf, v);
  }

  /** A custom category's facets: one key per field name, and a value appears
      exactly when some item of the category decodes to a map holding it
      under that field. Items that fail to decode or lack the key add nothing. */
  lemma CustomFacetValues(items: seq<Item>, c: CustomCategory, codec: FieldCodec, field: string, v: string)
    ensures CustomFacets(items, c, codec).Keys == set f | f in c.fields
    ensures field in c.fields ==>
              (v in CustomFacets(items, c, codec)[field] <==>
                 exists x | x in items :: x.category == Some(c.name)
                                           && field in DecodeCustomFields(codec, x.collection)
                                           && DecodeCustomFields(codec, x.collection)[field] == v)
  {
  }

  /** Two coins, from Spain and from France, give the Country facet
      ["France", "Spain"]: sorted and without gaps. */
  lemma TwoCoinsCountryFacet()
    ensures var items := [Item(Some("A"), 0, Some("Coin"), None, Some("Spain"), None),
                          Item(Some("B"), 0, Some("Coin"), None, Some("France"), None)];
            BuiltinFacets(items, "Coin")["Country"] == ["France", "Spain"]
  {
    assert Less("France", "Spain");
    TwoItemsCountryFacet(Item(Some("A"), 0, Some("Coin"), None, Some("Spain"), None),
                         Item(Some("B"), 0, Some("Coin"), None, Some("France"), None), "Coin");
  }

  /** Two items of a category with different countries list both countries,
      in order. */
  lemma TwoItemsCountryFacet(a: Item, b: Item, name: string)
    requires a.category == Some(name) && b.category == Some(name)
    requires a.country.Some? && b.country.Some? && Less(b.country.value, a.country.value)
    ensures BuiltinFacets([a, b], name)["Country"] == [b.country.value, a.country.value]
  {
    var x, y := a.country.value, b.country.value;
    assert ItemsIn([a, b], name) == [a, b];
    TwoCountries(a, b);
    TwoSorted(x, y);
  }

  lemma TwoCountries(a: Item, b: Item)
    requires a.country.Some? && b.country.Some?
    ensures CompactMap([a, b], CountryOf) == [a.country.value, b.country.value]
  {
    assert [b][1..] == [];
    assert CompactMap([b], CountryOf) == [b.country.value] + CompactMap([], CountryOf);
    assert [a, b][1..] == [b];
  }

  lemma TwoSorted(x: string, y: string)
    requires Less(y, x)
    ensures SortedDistinct([x, y]) == [y, x]
  {
    assert StrictlySorted([y, x]);
    SortedUnique(SortedDistinct([x, y]), [y, x]);
  }
}

=== FILE: filter.dfy ===
/** The filter screen: the match predicate over `FilterParameters`, the
    filtered item list, and the check-box selection state behind it
    (FilterView.swift). */
module Filter {
  import opened Base
  import opened Text
  import opened Records

  /** The categories and per-field allowed values the user has ticked. */
  datatype FilterParameters = FilterParameters(
    selectedCategories: set<string>,
    selectedParams: map<string, set<string>>)

  /** The values an item actually has for `field`: its country, its year
      when set, its collection text, and the entry under `field` in its
      decoded field map. A missing value contributes nothing. */
  function PresentValues(item: Item, field: string, codec: FieldCodec): (vs: set<string>)
    ensures |vs| <= 4
  {
    var dict := DecodeCustomFields(codec, item.collection);
    (if field == "Country" && item.country.Some? then {item.country.value} else {})
    + (if field == "Year" && item.year != 0 then {DecimalString(item.year)} else {})
    + (if field == "Collection" && item.collection.Some? then {item.collection.value} else {})
    + (if field in dict then {dict[field]} else {})
  }

  /** One pass of the constraint loop: the item is rejected by the constraint
      on `field` when one of its values for that field is present and not
      allowed. Each test mirrors one `return false` of the source. */
  predicate ExcludedBy(item: Item, field: string, allowed: set<string>, codec: FieldCodec): (r: bool)
    ensures r <==> !(PresentValues(item, field, codec) <= allowed)
  {
    var dict := DecodeCustomFields(codec, item.collection);
    PresentValuesOutside(item, field, allowed, codec);
    || (field == "Country" && item.country.Some? && item.country.value !in allowed)
    || (field == "Year" && item.year != 0 && DecimalString(item.year) !in allowed)
    || (field == "Collection" && item.collection.Some? && item.collection.value !in allowed)
    || (field in dict && dict[field] !in allowed)
  }

  /** A present value outside the allowed set is one of the four kinds. */
  lemma PresentValuesOutside(item: Item, field: string, allowed: set<string>, codec: FieldCodec)
    ensures var dict := DecodeCustomFields(codec, item.collection);
            !(PresentValues(item, field, codec) <= allowed) <==>
              || (field == "Country" && item.country.Some? && item.country.value !in allowed)
              || (field == "Year" && item.year != 0 && DecimalString(item.year) !in allowed)
              || (field == "Collection" && item.collection.Some? && item.collection.value !in allowed)
              || (field in dict && dict[field] !in allowed)
  {
  }

  /** The item survives every field constraint. */
  predicate PassesParams(item: Item, params: map<string, set<string>>, codec: FieldCodec) {
    forall field | field in params :: !ExcludedBy(item, field, params[field], codec)
  }

  /** FilterView's test: an empty category selection means no restriction. */
  predicate Matches(item: Item, p: FilterParameters, codec: FieldCodec): (r: bool)
    ensures r <==> && (p.selectedCategories == {} || CategoryKey(item) in p.selectedCategories)
                   && forall field | field in p.selectedParams :: PresentValues(item, field, codec) <= p.selectedParams[field]
  {
    && (|p.selectedCategories| == 0 || CategoryKey(item) in p.selectedCategories)
    && PassesParams(item, p.selectedParams, codec)
  }

  /** FilterView's `filteredItems`. */
  function FilteredItems(items: seq<Item>, p: FilterParameters, codec: FieldCodec): (r: seq<Item>)
    ensures forall x :: x in r <==> x in items && Matches(x, p, codec)
    ensures forall x :: multiset(r)[x] == if Matches(x, p, codec) then multiset(items)[x] else 0
    ensures |r| <= |items|
  {
    Select(items, x => Matches(x, p, codec))
  }

  /** An item that has no value for a field passes that field's constraint,
      whatever the allowed set is, even when it is empty. */
  lemma MissingValuePasses(item: Item, field: string, allowed: set<string>, codec: FieldCodec)
    requires PresentValues(item, field, codec) == {}
    ensures !ExcludedBy(item, field, allowed, codec)
  {
  }

  /** An empty allowed set rejects every item that has a value for the field. */
  lemma EmptyAllowedRejectsPresent(item: Item, field: string, codec: FieldCodec)
    requires PresentValues(item, field, codec) != {}
    ensures ExcludedBy(item, field, {}, codec)
  {
  }

  /** The Year constraint never looks at an item whose year is unset. */
  lemma UnsetYearIgnoresYearConstraint(item: Item, allowed: set<string>, codec: FieldCodec)
    requires item.year == 0
    ensures ExcludedBy(item, "Year", allowed, codec) <==>
              (var dict := DecodeCustomFields(codec, item.collection);
               "Year" in dict && dict["Year"] !in allowed)
  {
  }

  /** With a year set and no "Year" entry in its field map, an item passes
      the Year constraint exactly when its decimal year is allowed. */
  lemma SetYearMustBeAllowed(item: Item, allowed: set<string>, codec: FieldCodec)
    requires item.year != 0
    requires "Year" !in DecodeCustomFields(codec, item.collection)
    ensures !ExcludedBy(item, "Year", allowed, codec) <==> DecimalString(item.year) in allowed
  {
  }

  /** An item with no country, no year and no collection passes every field
      constraint: the filter is lenient rather than a strict AND. */
  lemma BareItemPassesEveryConstraint(item: Item, params: map<string, set<string>>, codec: FieldCodec)
    requires item.country.None? && item.year == 0 && item.collection.None?
    ensures PassesParams(item, params, codec)
  {
  }

  /** A concrete case where the strict reading ("the value must be present and
      allowed") and the code differ: a coin with no year is kept by a Year
      constraint that allows only "2000". */
  lemma LenientNotStrict(codec: FieldCodec)
    ensures Matches(Item(Some("Penny"), 0, Some("Coin"), None, None, None),
                    FilterParameters({"Coin"}, map["Year" := {"2000"}]), codec)
  {
  }

  /** With nothing selected the filter returns its input unchanged. */
  lemma NoSelectionKeepsAll(items: seq<Item>, codec: FieldCodec)
    ensures FilteredItems(items, FilterParameters({}, map[]), codec) == items
  {
  }

  /** The filtered list keeps the order of the given list. */
  lemma FilteredKeepsOrder(items: seq<Item>, p: FilterParameters, codec: FieldCodec)
    ensures Subsequence(FilteredItems(items, p, codec), items)
  {
    SelectIsSubsequence(items, x => Matches(x, p, codec));
  }

  // ---------------------------------------------------------------------------
  // Selection state of the filter screen
  // ---------------------------------------------------------------------------

  /** The ticked categories, the expanded category, and the ticked values. */
  datatype Selection = Selection(
    categories: set<string>,
    expanded: Option<string>,
    params: map<string, set<string>>)

  /** The parameters the screen filters with. */
  function ToParameters(s: Selection): FilterParameters {
    FilterParameters(s.categories, s.params)
  }

  /** `selectedParams[field, default: []]`. */
  function ValuesOf(params: map<string, set<string>>, field: string): set<string> {
    if field in params then params[field] else {}
  }

  /** Tapping a category's check box: untick it (collapsing it if it was
      expanded) or tick and expand it. */
  function ToggleCategory(s: Selection, category: string): (r: Selection)
    ensures category in r.categories <==> category !in s.categories
    ensures r.categories - {category} == s.categories - {category}
    ensures category in r.categories ==> r.expanded == Some(category)
    ensures category !in r.categories && s.expanded != Some(category) ==> r.expanded == s.expanded
    ensures category !in r.categories ==> r.expanded != Some(category)
    ensures r.params == s.params
  {
    if category in s.categories then
      Selection(s.categories - {category},
                if s.expanded == Some(category) then None else s.expanded,
                s.params)
    else
      Selection(s.categories + {category}, Some(category), s.params)
  }

  /** Tapping the chevron of a ticked category. */
  function ToggleExpanded(s: Selection, category: string): (r: Selection)
    ensures r.expanded == Some(category) <==> s.expanded != Some(category)
    ensures r.expanded.Some? ==> r.expanded == Some(category)
    ensures r.categories == s.categories && r.params == s.params
  {
    Selection(s.categories, if s.expanded == Some(category) then None else Some(category), s.params)
  }

  /** Tapping a value's check box: flip its membership in the field's set,
      creating the set if needed; the key is kept even when the set empties. */
  function ToggleValue(s: Selection, field: string, value: string): (r: Selection)
    ensures field in r.params
    ensures value in r.params[field] <==> value !in ValuesOf(s.params, field)
    ensures r.params[field] - {value} == ValuesOf(s.params, field) - {value}
    ensures forall f | f != field :: (f in r.params <==> f in s.params)
    ensures forall f | f in s.params && f != field :: r.params[f] == s.params[f]
    ensures r.categories == s.categories && r.expanded == s.expanded
  {
    var current := ValuesOf(s.params, field);
    var next := if value in current then current - {value} else current + {value};
    Selection(s.categories, s.expanded, s.params[field := next])
  }

  /** "Reset all filters". */
  function Reset(s: Selection): (r: Selection)
    ensures r.categories == {} && r.params == map[] && r.expanded == None
  {
    Selection({}, None, map[])
  }

  /** On appearing and after rebuilding the facets: when nothing is ticked,
      tick and expand the first category. */
  function SelectDefault(s: Selection, allCategories: seq<string>): (r: Selection)
    ensures |allCategories| > 0 && s.categories == {} ==>
              r.categories == {allCategories[0]} && r.expanded == Some(allCategories[0])
    ensures |allCategories| == 0 || s.categories != {} ==> r == s
    ensures r.params == s.params
  {
    if |allCategories| > 0 && s.categories == {} then
      Selection(s.categories + {allCategories[0]}, Some(allCategories[0]), s.params)
    else s
  }

  /** Tapping the same value twice restores its membership; if the field
      already had a set, the whole selection is restored. */
  lemma ToggleValueTwice(s: Selection, field: string, value: string)
    ensures var r := ToggleValue(ToggleValue(s, field, value), field, value);
            (value in ValuesOf(r.params, field) <==> value in ValuesOf(s.params, field))
            && (field in s.params ==> r == s)
  {
    var r := ToggleValue(ToggleValue(s, field, value), field, value);
    if field in s.params {
      assert r.params[field] == s.params[field];
      assert r.params == s.params;
    }
  }

  /** Tapping a category twice restores the ticked set. */
  lemma ToggleCategoryTwice(s: Selection, category: string)
    ensures ToggleCategory(ToggleCategory(s, category), category).categories == s.categories
  {
  }

  /** Unticking the last value of a field leaves an empty set under the key,
      and from then on every item that has a value for that field is
      filtered out. */
  lemma UntickLastValue(s: Selection, field: string, value: string, item: Item, codec: FieldCodec)
    requires field in s.params && s.params[field] == {value}
    requires PresentValues(item, field, codec) != {}
    ensures var r := ToggleValue(s, field, value);
            field in r.params && r.params[field] == {}
            && !Matches(item, ToParameters(r), codec)
  {
    var r := ToggleValue(s, field, value);
    EmptyAllowedRejectsPresent(item, field, codec);
  }

  /** After a reset the screen lists every item. */
  lemma ResetShowsAll(s: Selection, items: seq<Item>, codec: FieldCodec)
    ensures FilteredItems(items, ToParameters(Reset(s)), codec) == items
  {
    NoSelectionKeepsAll(items, codec);
  }

  /** Choosing the default is idempotent, and afterwards something is ticked
      whenever there is a category to tick. */
  lemma SelectDefaultIdempotent(s: Selection, allCategories: seq<string>)
    ensures SelectDefault(SelectDefault(s, allCategories), allCategories) == SelectDefault(s, allCategories)
    ensures |allCategories| > 0 ==> SelectDefault(s, allCategories).categories != {}
  {
  }
}

=== FILE: onboarding.dfy ===
/** The four-page onboarding pager (OnboardingView.swift). */
module Onboarding {
  const PageCount: nat := 4

  type Page = n: int | 0 <= n < PageCount

  /** Either a page is on screen, or `onComplete` has fired and the pager is
      gone. */
  datatype Pager = Showing(page: Page) | Completed

  /** The pager starts on the first page. */
  const Start: Pager := Showing(0)

  /** The two buttons every page carries, and the page-style swipe to a
      neighbouring page. */
  datatype PagerEvent = Continue | Skip | SwipeForward | SwipeBack

  predicate IsButton(e: PagerEvent) {
    e == Continue || e == Skip
  }

  /** One event. "Continue" moves to the next page and completes on the last
      one; "Skip" completes from every page; a swipe stays within the pages. */
  function Press(p: Pager, e: PagerEvent): (r: Pager)
    ensures p.Completed? ==> r == Completed
    ensures p.Showing? ==> (r.Completed? <==> e == Skip || (e == Continue && p.page == PageCount - 1))
    ensures p.Showing? && e == Continue && r.Showing? ==> r.page == p.page + 1
    ensures p.Showing? && r.Showing? ==> -1 <= r.page - p.page <= 1
  {
    match p
    case Completed => Completed
    case Showing(k) =>
      match e
      case Skip => Completed
      case Continue => if k == PageCount - 1 then Completed else Showing(k + 1)
      case SwipeForward => if k == PageCount - 1 then p else Showing(k + 1)
      case SwipeBack => if k == 0 then p else Showing(k - 1)
  }

  /** A run of events. The pager is still showing only if it started
      showing, no "Skip" was pressed, and it moved at most one page per
      event. */
  function RunPager(p: Pager, es: seq<PagerEvent>): (r: Pager)
    ensures r.Showing? ==> p.Showing? && forall i | 0 <= i < |es| :: es[i] != Skip
    ensures r.Showing? ==> p.page - |es| <= r.page <= p.page + |es|
    decreases |es|
  {
    if |es| == 0 then p else RunPager(Press(p, es[0]), es[1..])
  }

  /** Once complete, nothing more happens. */
  lemma {:induction false} CompletedStays(es: seq<PagerEvent>)
    ensures RunPager(Completed, es) == Completed
    decreases |es|
  {
    if |es| > 0 {
      CompletedStays(es[1..]);
    }
  }

  /** Swiping alone never completes onboarding. */
  lemma {:induction false} SwipesNeverComplete(p: Pager, es: seq<PagerEvent>)
    requires p.Showing?
    requires forall i | 0 <= i < |es| :: !IsButton(es[i])
    ensures RunPager(p, es).Showing?
    decreases |es|
  {
    if |es| > 0 {
      SwipesNeverComplete(Press(p, es[0]), es[1..]);
    }
  }

  /** Pressing buttons only, onboarding completes after at most as many
      presses as there are pages left: each press either completes or moves
      one page on. */
  lemma {:induction false} ButtonsComplete(k: Page, es: seq<PagerEvent>)
    requires forall i | 0 <= i < |es| :: IsButton(es[i])
    requires |es| >= PageCount - k
    ensures RunPager(Showing(k), es) == Completed
    decreases |es|
  {
    var next := Press(Showing(k), es[0]);
    if next.Completed? {
      CompletedStays(es[1..]);
    } else {
      ButtonsComplete(next.page, es[1..]);
    }
  }

  /** From the first page, four presses of "Continue" complete onboarding and
      three do not. */
  lemma FourContinuesComplete()
    ensures RunPager(Start, [Continue, Continue, Continue, Continue]) == Completed
    ensures RunPager(Start, [Continue, Continue, Continue]) == Showing(3)
  {
    ButtonsComplete(0, [Continue, Continue, Continue, Continue]);
    var three := [Continue, Continue, Continue];
    assert three[1..] == [Continue, Continue];
    assert three[1..][1..] == [Continue];
  }
}

=== FILE: records.dfy ===
/** The app's data model: the built-in item categories, user-defined
    categories, the stored item record, and the JSON string-map codec that
    custom items keep in their `collection` slot. */
module Records {
  import opened Base

  /** The built-in categories and their raw values. */
  datatype ItemCategory = Coin | Banknote | Other {
    function RawValue(): (r: string)
      ensures r in {"Coin", "Banknote", "Other"}
    {
      match this
      case Coin => "Coin"
      case Banknote => "Banknote"
      case Other => "Other"
    }
  }

  /** Categories offered in the user interface. */
  function VisibleCategories(): seq<ItemCategory> {
    [Coin, Banknote]
  }

  /** Distinct categories have distinct raw values, so the stored string
      identifies the category. */
  lemma RawValueInjective(a: ItemCategory, b: ItemCategory)
    ensures a.RawValue() == b.RawValue() <==> a == b
  {
  }

  /** `Other` is never offered, and the offered categories are distinct. */
  lemma OtherNeverVisible()
    ensures Other !in VisibleCategories()
    ensures forall i, j | 0 <= i < j < |VisibleCategories()| ::
              VisibleCategories()[i] != VisibleCategories()[j]
  {
  }

  /** Opaque identifier of a user-defined category (a UUID). */
  type CategoryId = nat

  /** A user-defined category: a name and its ordered field names. */
  datatype CustomCategory = CustomCategory(id: CategoryId, name: string, fields: seq<string>)

  /** A stored item. Every attribute of the persistent entity is optional;
      `year` is 0 when unset. For custom categories, `collection` holds the
      JSON-encoded field map instead of a literal collection name. Image
      blobs are not part of this model. */
  datatype Item = Item(
    name: Option<string>,
    year: Int32,
    category: Option<string>,
    color: Option<string>,
    country: Option<string>,
    collection: Option<string>)

  /** The category an item is filed under, `nil` read as "". */
  function CategoryKey(item: Item): string {
    item.category.GetOr("")
  }

  /** The JSON encoder and decoder for `[String: String]`. Encoding may fail;
      decoding fails on text that is not a JSON object of strings. */
  datatype FieldCodec = FieldCodec(
    encode: map<string, string> -> Option<string>,
    decode: string -> Option<map<string, string>>)

  /** The assumed behaviour of the JSON codec: whatever encodes decodes back
      to the same map. Lemmas that need it take it as a precondition. */
  ghost predicate RoundTrips(codec: FieldCodec) {
    forall m :: codec.encode(m).Some? ==> codec.decode(codec.encode(m).value) == Some(m)
  }

  /** The assumed totality of the encoder on string maps: `JSONEncoder`
      cannot fail on a `[String: String]`, and its output is valid UTF-8, so
      neither `try?` nor `String(data:encoding:)` yields nil. Lemmas that need
      it take it as a precondition. */
  ghost predicate EncodesAll(codec: FieldCodec) {
    forall m :: codec.encode(m).Some?
  }

  /** Reads a custom item's field map; a missing or undecodable
      `collection` reads as the empty map. */
  function DecodeCustomFields(codec: FieldCodec, collection: Option<string>): (m: map<string, string>)
    ensures collection.None? ==> m == map[]
    ensures collection.Some? && codec.decode(collection.value).None? ==> m == map[]
    ensures collection.Some? && codec.decode(collection.value).Some? ==>
              m == codec.decode(collection.value).value
  {
    match collection
    case None => map[]
    case Some(text) =>
      match codec.decode(text)
      case None => map[]
      case Some(dict) => dict
  }

  /** Writes a field map; an encoding failure yields "". */
  function EncodeCustomFields(codec: FieldCodec, dict: map<string, string>): (s: string)
    ensures codec.encode(dict).None? ==> s == ""
    ensures codec.encode(dict).Some? ==> s == codec.encode(dict).value
  {
    match codec.encode(dict)
    case None => ""
    case Some(text) => text
  }

  /** Under the round-trip assumption, decoding what was encoded gives the
      map back. */
  lemma EncodeThenDecode(codec: FieldCodec, dict: map<string, string>)
    requires RoundTrips(codec) && codec.encode(dict).Some?
    ensures DecodeCustomFields(codec, Some(EncodeCustomFields(codec, dict))) == dict
  {
  }

  predicate Distinct<T(==)>(s: seq<T>) {
    forall i, j | 0 <= i < j < |s| :: s[i] != s[j]
  }

  function Min(a: nat, b: nat): nat {
    if a <= b then a else b
  }

  /** `Dictionary(uniqueKeysWithValues: zip(keys, values))`: pairs keys with
      values by position, stopping at the shorter list. A repeated key among
      the paired ones is a runtime trap, hence the precondition. */
  function ZipMap(keys: seq<string>, values: seq<string>): (m: map<string, string>)
    requires Distinct(keys[..Min(|keys|, |values|)])
    ensures m.Keys == set i | 0 <= i < Min(|keys|, |values|) :: keys[i]
    ensures forall i | 0 <= i < Min(|keys|, |values|) :: m[keys[i]] == values[i]
    decreases |keys|
  {
    if |keys| == 0 || |values| == 0 then map[]
    else
      var n := Min(|keys|, |values|);
      assert keys[1..][..Min(|keys| - 1, |values| - 1)] == keys[..n][1..];
      var rest := ZipMap(keys[1..], values[1..]);
      ZipStep(keys, values, rest);
      rest[keys[0] := values[0]]
  }

  /** One step of the zip: putting the first pair in front of the zipped
      tails. */
  lemma ZipStep(keys: seq<string>, values: seq<string>, rest: map<string, string>)
    requires |keys| > 0 && |values| > 0
    requires Distinct(keys[..Min(|keys|, |values|)])
    requires rest.Keys == set i | 0 <= i < Min(|keys| - 1, |values| - 1) :: keys[1..][i]
    requires forall i | 0 <= i < Min(|keys| - 1, |values| - 1) :: rest[keys[1..][i]] == values[1..][i]
    ensures var m := rest[keys[0] := values[0]];
            && m.Keys == (set i | 0 <= i < Min(|keys|, |values|) :: keys[i])
            && forall i | 0 <= i < Min(|keys|, |values|) :: m[keys[i]] == values[i]
  {
    var n := Min(|keys|, |values|);
    assert keys[0] !in rest.Keys by {
      forall i | 0 <= i < n - 1
        ensures keys[1..][i] != keys[0]
      {
        assert keys[..n][i + 1] != keys[..n][0];
      }
    }
    var m := rest[keys[0] := values[0]];
    forall k | k in m.Keys
      ensures k in set i | 0 <= i < n :: keys[i]
    {
      if k != keys[0] {
        var i :| 0 <= i < n - 1 && keys[1..][i] == k;
        assert keys[i + 1] == k;
      }
    }
    forall i | 0 <= i < n
      ensures keys[i] in m.Keys && m[keys[i]] == values[i]
    {
      if i > 0 {
        assert keys[i] == keys[1..][i - 1];
        assert keys[..n][i] != keys[..n][0];
      }
    }
  }
}

=== FILE: scenarios.dfy ===
/** End-to-end walks through the screens, composed from the other modules. */
module Scenarios {
  import opened Base
  import opened Text
  import opened Records
  import opened Filter
  import opened AddItem
  import opened Cluster

  /** A "Country" field is a plain text field. */
  lemma CountryIsText()
    ensures InputFor("Country") == TextInput
  {
    LowerLacks("Country", 'm');
    MissingCharNotContained(Lower("Country"), "name", 2);
    LowerLacks("Country", 'e');
    MissingCharNotContained(Lower("Country"), "year", 1);
  }

  const Stamps: CustomCategory := CustomCategory(1, "Stamps", FixedFields + ["Country"])

  /** The user fills in the name, picks 1840, tries to type into the year
      row (which has no text field) and types the country. */
  const StampEdits: seq<Edit> :=
    [TypeValue(0, "Penny Black"), PickYear(1840), TypeValue(1, "1840"), TypeValue(2, "UK")]

  /** Which input each of the stamp fields gets. */
  lemma StampInputs()
    ensures InputFor(Stamps.fields[0]) == NameInput
    ensures InputFor(Stamps.fields[1]) == YearPicker
    ensures InputFor(Stamps.fields[2]) == TextInput
  {
    NameFieldInput();
    YearOfFoundationInput();
    CountryIsText();
  }

  /** The stamp sheet with the given values and year. */
  function StampForm(values: seq<string>, year: Option<Int32>): Draft {
    Draft(Custom(Stamps), "", "", "", "", year, values)
  }

  /** The sheet after each of the four edits: the name is typed, the year
      picked, the typing into the year row has no effect, the country is
      typed. */
  lemma StampStep1()
    ensures ApplyEdit(StampForm(["", "", ""], None), StampEdits[0]) == StampForm(["Penny Black", "", ""], None)
  {
    NameFieldInput();
  }

  lemma StampStep2()
    ensures ApplyEdit(StampForm(["Penny Black", "", ""], None), StampEdits[1]) == StampForm(["Penny Black", "", ""], Some(1840))
  {
  }

  lemma StampStep3()
    ensures ApplyEdit(StampForm(["Penny Black", "", ""], Some(1840)), StampEdits[2]) == StampForm(["Penny Black", "", ""], Some(1840))
  {
    YearOfFoundationInput();
  }

  lemma StampStep4()
    ensures ApplyEdit(StampForm(["Penny Black", "", ""], Some(1840)), StampEdits[3]) == StampForm(["Penny Black", "", "UK"], Some(1840))
  {
    CountryIsText();
  }

  lemma StampDraft()
    ensures ApplyEdits(NewCustomDraft(Stamps), StampEdits) == StampForm(["Penny Black", "", "UK"], Some(1840))
  {
    assert NewCustomDraft(Stamps) == StampForm(["", "", ""], None);
    StampStep1();
    StampStep2();
    StampStep3();
    StampStep4();
    Unroll4(NewCustomDraft(Stamps), StampEdits);
  }

  lemma Unroll4(d: Draft, es: seq<Edit>)
    requires |es| == 4
    ensures ApplyEdits(d, es) == ApplyEdit(ApplyEdit(ApplyEdit(ApplyEdit(d, es[0]), es[1]), es[2]), es[3])
  {
    var d1 := ApplyEdit(d, es[0]);
    var d2 := ApplyEdit(d1, es[1]);
    var d3 := ApplyEdit(d2, es[2]);
    var d4 := ApplyEdit(d3, es[3]);
    var e1 := es[1..];
    var e2 := e1[1..];
    var e3 := e2[1..];
    assert e1[0] == es[1] && e2[0] == es[2] && e3[0] == es[3] && e3[1..] == [];
    assert ApplyEdits(d4, e3[1..]) == d4;
    assert ApplyEdits(d3, e3) == d4;
    assert ApplyEdits(d2, e2) == d4;
    assert ApplyEdits(d1, e1) == d4;
  }

  const StampFields: map<string, string> :=
    map["Name" := "Penny Black", "Year of foundation" := "", "Country" := "UK"]

  /** Pairing the stamp fields with the typed values. */
  lemma StampFieldMap()
    ensures Distinct(Stamps.fields)
    ensures ZipMap(Stamps.fields, ["Penny Black", "", "UK"]) == StampFields
  {
    StampFieldsListed();
    ZipThree("Name", "Year of foundation", "Country", "Penny Black", "", "UK");
  }

  /** Zipping three distinct keys with three values. */
  lemma ZipThree(k0: string, k1: string, k2: string, v0: string, v1: string, v2: string)
    requires k0 != k1 && k0 != k2 && k1 != k2
    ensures Distinct([k0, k1, k2])
    ensures ZipMap([k0, k1, k2], [v0, v1, v2]) == map[k0 := v0, k1 := v1, k2 := v2]
  {
    var keys := [k0, k1, k2];
    assert keys[..Min(|keys|, 3)] == keys;
    var m := ZipMap(keys, [v0, v1, v2]);
    assert m[k0] == v0 && m[k1] == v1 && m[k2] == v2 by {
      assert keys[0] == k0 && keys[1] == k1 && keys[2] == k2;
    }
    forall k | k in m.Keys
      ensures k == k0 || k == k1 || k == k2
    {
      var i :| 0 <= i < 3 && keys[i] == k;
    }
  }

  lemma StampFieldsListed()
    ensures Stamps.fields == ["Name", "Year of foundation", "Country"]
    ensures Distinct(Stamps.fields)
  {
    var keys := Stamps.fields;
    assert keys == ["Name", "Year of foundation", "Country"];
    assert keys[0][0] == 'N' && keys[1][0] == 'Y' && keys[2][0] == 'C';
  }

  /** Saving the stamp: the record carries the picked year, and (under the
      codec assumptions) its stored field map has the name and country but an
      empty "Year of foundation". */
  lemma StampSaved(codec: FieldCodec)
    requires RoundTrips(codec) && EncodesAll(codec)
    ensures var d := ApplyEdits(NewCustomDraft(Stamps), StampEdits);
            && SaveDoesNotTrap(d)
            && Save(d, codec).Ok?
            && Save(d, codec).value.name == Some("Penny Black")
            && Save(d, codec).value.year == 1840
            && Save(d, codec).value.category == Some("Stamps")
            && DecodeCustomFields(codec, Save(d, codec).value.collection) == StampFields
  {
    StampDraft();
    StampItem(codec);
    EncodeThenDecode(codec, StampFields);
  }

  /** The item the stamp sheet saves. */
  lemma StampItem(codec: FieldCodec)
    ensures var d := StampForm(["Penny Black", "", "UK"], Some(1840));
            && SaveDoesNotTrap(d)
            && Save(d, codec) == Ok(Item(Some("Penny Black"), 1840, Some("Stamps"), None, None, codec.encode(StampFields)))
  {
    var d := StampForm(["Penny Black", "", "UK"], Some(1840));
    PennyBlackNotBlank();
    StampFormFieldMap();
    CustomSave(d, codec);
  }

  /** What the Add button stores for a custom sheet with a name. */
  lemma CustomSave(d: Draft, codec: FieldCodec)
    requires d.target.Custom? && |d.values| > 0 && !IsBlank(d.values[0])
    requires Distinct(d.target.custom.fields[..Min(|d.target.custom.fields|, |d.values|)])
    ensures SaveDoesNotTrap(d)
    ensures Save(d, codec) == Ok(Item(Some(d.values[0]), d.selectedYear.GetOr(0), Some(d.target.custom.name),
                                      None, None, codec.encode(FieldMap(d))))
  {
  }

  lemma PennyBlackNotBlank()
    ensures !IsBlank("Penny Black")
  {
    assert !IsWhitespace("Penny Black"[0]);
    BlankIffAllWhitespace("Penny Black");
  }

  /** The filled-in stamp sheet pairs its fields without a repeated key. */
  lemma StampFormFieldMap()
    ensures var d := StampForm(["Penny Black", "", "UK"], Some(1840));
            && Distinct(d.target.custom.fields[..Min(|d.target.custom.fields|, |d.values|)])
            && FieldMap(d) == StampFields
  {
    var d := StampForm(["Penny Black", "", "UK"], Some(1840));
    StampFieldMap();
    var fields := Stamps.fields;
    assert fields[..Min(|fields|, |d.values|)] == fields;
  }

  /** Under the codec assumptions, the saved stamp passes a Country
      constraint on "UK" and is rejected by one on "France". */
  lemma StampFilteredByCountry(codec: FieldCodec)
    requires RoundTrips(codec) && EncodesAll(codec)
    ensures var d := ApplyEdits(NewCustomDraft(Stamps), StampEdits);
            && SaveDoesNotTrap(d) && Save(d, codec).Ok?
            && Matches(Save(d, codec).value, FilterParameters({"Stamps"}, map["Country" := {"UK"}]), codec)
            && !Matches(Save(d, codec).value, FilterParameters({"Stamps"}, map["Country" := {"France"}]), codec)
  {
    StampSaved(codec);
    var d := ApplyEdits(NewCustomDraft(Stamps), StampEdits);
    assert Save(d, codec).value.country.None?;
    CountryFromFieldMap(Save(d, codec).value, codec);
  }

  /** An item of the stamp category without a built-in country is judged by
      the "Country" entry of its field map. */
  lemma CountryFromFieldMap(item: Item, codec: FieldCodec)
    requires item.category == Some("Stamps") && item.country.None?
    requires DecodeCustomFields(codec, item.collection) == StampFields
    ensures Matches(item, FilterParameters({"Stamps"}, map["Country" := {"UK"}]), codec)
    ensures !Matches(item, FilterParameters({"Stamps"}, map["Country" := {"France"}]), codec)
  {
    assert !ExcludedBy(item, "Country", {"UK"}, codec);
    assert ExcludedBy(item, "Country", {"France"}, codec);
    var france := map["Country" := {"France"}];
    assert "Country" in france && france["Country"] == {"France"};
  }

  /** A coin saved without picking a year has year 0: the Year facet skips it
      and every Year constraint lets it through, provided the empty collection
      text does not decode to a map with a "Year" key (a JSON decoder rejects
      the empty text, so the coin's map reads as empty). */
  lemma YearlessCoin(name: string, allowed: set<string>, codec: FieldCodec)
    requires !IsBlank(name)
    requires "Year" !in DecodeCustomFields(codec, Some(""))
    ensures var d := ApplyEdit(NewBuiltinDraft(Coin), TypeText(NameSlot, name));
            && Save(d, codec).Ok?
            && Save(d, codec).value.year == 0
            && !ExcludedBy(Save(d, codec).value, "Year", allowed, codec)
  {
    var d := ApplyEdit(NewBuiltinDraft(Coin), TypeText(NameSlot, name));
    assert Save(d, codec).value == Item(Some(name), 0, Some("Coin"), None, Some(""), Some(""));
    UnsetYearIgnoresYearConstraint(Save(d, codec).value, allowed, codec);
  }
}

=== FILE: text.dfy ===
/** String handling the app relies on: whitespace trimming, ASCII
    lower-casing, substring search, lexicographic order, and the decimal
    rendering and parsing of Int32 values. */
module Text {
  import opened Base

  // ---------------------------------------------------------------------------
  // Whitespace and trimming (`trimmingCharacters(in: .whitespaces)`)
  // ---------------------------------------------------------------------------

  /** Members of Foundation's `CharacterSet.whitespaces`: horizontal tab and
      the Unicode space separators (category Zs). Newlines are not included. */
  predicate IsWhitespace(c: char) {
    || c == ' ' || c == '\t' || c == '\U{00A0}' || c == '\U{1680}'
    || ('\U{2000}' <= c <= '\U{200A}')
    || c == '\U{202F}' || c == '\U{205F}' || c == '\U{3000}'
  }

  predicate AllWhitespace(s: string) {
    forall i | 0 <= i < |s| :: IsWhitespace(s[i])
  }

  /** Drops leading whitespace. */
  function TrimStart(s: string): (r: string)
    ensures |r| <= |s| && r == s[|s| - |r|..]
    ensures AllWhitespace(s[..|s| - |r|])
    ensures |r| > 0 ==> !IsWhitespace(r[0])
  {
    if |s| > 0 && IsWhitespace(s[0]) then TrimStart(s[1..]) else s
  }

  /** Drops trailing whitespace. */
  function TrimEnd(s: string): (r: string)
    ensures |r| <= |s| && r == s[..|r|]
    ensures AllWhitespace(s[|r|..])
    ensures |r| > 0 ==> !IsWhitespace(r[|r| - 1])
  {
    if |s| > 0 && IsWhitespace(s[|s| - 1]) then TrimEnd(s[..|s| - 1]) else s
  }

  function Trim(s: string): string {
    TrimEnd(TrimStart(s))
  }

  /** The app's "required field is empty" test: nothing is left after trimming. */
  predicate IsBlank(s: string) {
    |Trim(s)| == 0
  }

  /** A string is blank exactly when every character in it is whitespace. */
  lemma BlankIffAllWhitespace(s: string)
    ensures IsBlank(s) <==> AllWhitespace(s)
  {
    var t := TrimStart(s);
    if IsBlank(s) {
      // TrimEnd(t) is empty, so all of t is whitespace; t cannot start with
      // whitespace, so t is empty and all of s was dropped as whitespace.
      assert t[0..] == t;
      assert |t| == 0;
      assert s[..|s|] == s;
    } else {
      assert |t| > 0;
      assert t[0] == s[|s| - |t|];
    }
  }

  // ---------------------------------------------------------------------------
  // Lower-casing and substring search (`lowercased().contains(...)`)
  // ---------------------------------------------------------------------------

  function ToLowerChar(c: char): char {
    if 'A' <= c <= 'Z' then (c as int + 32) as char else c
  }

  /** `lowercased()`, restricted to the ASCII letters. */
  function Lower(s: string): string {
    seq(|s|, i requires 0 <= i < |s| => ToLowerChar(s[i]))
  }

  predicate StartsWith(s: string, prefix: string) {
    |prefix| <= |s| && s[..|prefix|] == prefix
  }

  /** `s.contains(sub)`: `sub` occurs in `s` at some position. */
  predicate Contains(s: string, sub: string)
    decreases |s|
  {
    StartsWith(s, sub) || (|s| > 0 && Contains(s[1..], sub))
  }

  /** The recursive search agrees with "there is an offset where `sub` starts". */
  lemma {:induction false} ContainsIffOffset(s: string, sub: string)
    ensures Contains(s, sub) <==> exists k | 0 <= k <= |s| :: StartsWith(s[k..], sub)
    decreases |s|
  {
    assert s[0..] == s;
    if |s| > 0 {
      ContainsIffOffset(s[1..], sub);
      if Contains(s[1..], sub) {
        var k :| 0 <= k <= |s[1..]| && StartsWith(s[1..][k..], sub);
        assert s[1..][k..] == s[k + 1..];
      }
      if exists k | 0 <= k <= |s| :: StartsWith(s[k..], sub) {
        var k :| 0 <= k <= |s| && StartsWith(s[k..], sub);
        if k > 0 {
          assert s[1..][k - 1..] == s[k..];
          assert Contains(s[1..], sub);
        }
      }
    }
  }

  /** A lower-case letter occurs in `Lower(s)` only if it, or its upper-case
      form, occurs in `s`. */
  lemma LowerLacks(s: string, c: char)
    requires 'a' <= c <= 'z'
    requires forall i | 0 <= i < |s| :: s[i] != c && s[i] as int != c as int - 32
    ensures c !in Lower(s)
  {
    forall i | 0 <= i < |s|
      ensures Lower(s)[i] != c
    {
      assert Lower(s)[i] == ToLowerChar(s[i]);
    }
  }

  /** A string cannot contain a pattern one of whose characters it lacks. */
  lemma {:induction false} MissingCharNotContained(s: string, sub: string, j: nat)
    requires j < |sub| && sub[j] !in s
    ensures !Contains(s, sub)
    decreases |s|
  {
    if |s| > 0 {
      MissingCharNotContained(s[1..], sub, j);
    }
  }

  // ---------------------------------------------------------------------------
  // Lexicographic order (`sorted()` on strings)
  // ---------------------------------------------------------------------------

  /** Strict lexicographic order on character codes. */
  predicate Less(a: string, b: string)
    decreases |a|
  {
    if |a| == 0 then |b| > 0
    else if |b| == 0 then false
    else if a[0] != b[0] then a[0] < b[0]
    else Less(a[1..], b[1..])
  }

  lemma {:induction false} LessIrreflexive(a: string)
    ensures !Less(a, a)
    decreases |a|
  {
    if |a| > 0 {
      LessIrreflexive(a[1..]);
    }
  }

  lemma {:induction false} LessTransitive(a: string, b: string, c: string)
    requires Less(a, b) && Less(b, c)
    ensures Less(a, c)
    decreases |a|
  {
    if |a| > 0 && a[0] == b[0] && b[0] == c[0] {
      LessTransitive(a[1..], b[1..], c[1..]);
    }
  }

  lemma {:induction false} LessTotal(a: string, b: string)
    requires a != b
    ensures Less(a, b) || Less(b, a)
    decreases |a|
  {
    if |a| > 0 && |b| > 0 && a[0] == b[0] {
      assert a == [a[0]] + a[1..] && b == [b[0]] + b[1..];
      LessTotal(a[1..], b[1..]);
    }
  }

  lemma {:induction false} LessAsymmetric(a: string, b: string)
    requires Less(a, b)
    ensures !Less(b, a)
  {
    if Less(b, a) {
      LessTransitive(a, b, a);
      LessIrreflexive(a);
    }
  }

  // ---------------------------------------------------------------------------
  // Decimal rendering (`"\(n)"`, `String(n)`) and parsing (`Int32(s)`)
  // ---------------------------------------------------------------------------

  predicate IsDigit(c: char) {
    '0' <= c <= '9'
  }

  predicate AllDigits(s: string) {
    forall i | 0 <= i < |s| :: IsDigit(s[i])
  }

  function DigitChar(d: nat): (c: char)
    requires d < 10
    ensures IsDigit(c)
  {
    ('0' as int + d) as char
  }

  /** Decimal digits of a natural number, without leading zeros. */
  function Digits(n: nat): (r: string)
    ensures |r| > 0 && AllDigits(r)
    ensures (|r| > 1) == (n >= 10)
  {
    if n < 10 then [DigitChar(n)] else Digits(n / 10) + [DigitChar(n % 10)]
  }

  /** String interpolation of an integer: a minus sign for negatives, then digits. */
  function DecimalString(n: int): string {
    if n < 0 then "-" + Digits(-n) else Digits(n)
  }

  /** Value of a string of decimal digits. */
  function DigitsValue(s: string): nat
    requires AllDigits(s)
  {
    if |s| == 0 then 0
    else DigitsValue(s[..|s| - 1]) * 10 + (s[|s| - 1] as int - '0' as int)
  }

  /** Swift's failable `Int32(_: String)`: an optional sign, at least one
      digit and nothing else, and the value must fit in 32 bits. */
  function ParseInt32(s: string): (r: Option<Int32>)
    ensures r.Some? ==> |s| > 0 && (AllDigits(s) || ((s[0] == '-' || s[0] == '+') && |s| > 1 && AllDigits(s[1..])))
    ensures r.Some? && r.value < 0 ==> s[0] == '-'
    ensures |s| > 0 && !IsDigit(s[0]) && s[0] != '-' && s[0] != '+' ==> r.None?
    ensures |s| > 0 && AllDigits(s) ==> (r.Some? <==> DigitsValue(s) <= 0x7FFF_FFFF)
    ensures r.Some? && |s| > 0 && AllDigits(s) ==> r.value as int == DigitsValue(s)
    ensures |s| > 1 && s[0] == '+' && AllDigits(s[1..]) ==> (r.Some? <==> DigitsValue(s[1..]) <= 0x7FFF_FFFF)
    ensures r.Some? && |s| > 1 && s[0] == '+' && AllDigits(s[1..]) ==> r.value as int == DigitsValue(s[1..])
    ensures |s| > 1 && s[0] == '-' && AllDigits(s[1..]) ==> (r.Some? <==> DigitsValue(s[1..]) <= 0x8000_0000)
    ensures r.Some? && |s| > 1 && s[0] == '-' && AllDigits(s[1..]) ==> r.value as int + DigitsValue(s[1..]) == 0
  {
    var negative := |s| > 0 && s[0] == '-';
    var body := if |s| > 0 && (s[0] == '-' || s[0] == '+') then s[1..] else s;
    if |body| == 0 || !AllDigits(body) then None
    else
      var v: int := if negative then 0 - DigitsValue(body) else DigitsValue(body);
      if -0x8000_0000 <= v <= 0x7FFF_FFFF then Some(v) else None
  }

  /** Signs and leading zeros are accepted: "+7" reads as 7 and "-05" as -5. */
  lemma SignedParses()
    ensures ParseInt32("+7") == Some(7)
    ensures ParseInt32("-05") == Some(-5)
  {
    assert AllDigits("7") && DigitsValue("7") == 7;
    assert "-05"[1..] == "05" && AllDigits("05");
    assert DigitsValue("05") == DigitsValue("0") * 10 + 5;
  }

  lemma {:induction false} DigitsRoundTrip(n: nat)
    ensures DigitsValue(Digits(n)) == n
  {
    if n >= 10 {
      var d := Digits(n / 10) + [DigitChar(n % 10)];
      assert d[..|d| - 1] == Digits(n / 10);
      DigitsRoundTrip(n / 10);
    }
  }

  /** Rendering an Int32 and parsing it back gives the same value. */
  lemma DecimalRoundTrip(n: Int32)
    ensures ParseInt32(DecimalString(n)) == Some(n)
  {
    if n < 0 {
      var s := DecimalString(n);
      assert s[1..] == Digits(-(n as int));
      DigitsRoundTrip(-(n as int));
    } else {
      DigitsRoundTrip(n);
      assert IsDigit(Digits(n)[0]);
    }
  }

  /** The rendering is "0" exactly for zero, which is what the app's year
      sentinel tests rely on. */
  lemma DecimalZero(n: int)
    ensures DecimalString(n) == "0" <==> n == 0
  {
    if n < 0 {
      assert DecimalString(n)[0] == '-';
    } else if 0 < n < 10 {
      assert DecimalString(n) == [DigitChar(n)];
    }
  }

  /** The rendering is never empty. */
  lemma DecimalNonEmpty(n: int)
    ensures |DecimalString(n)| > 0
  {
  }
}
